=== FILE: README.md ===
# rebytes slab allocator, modelled in Dafny

This project models the allocator core of `rebytes`, a byte-buffer crate. It
has four layers:

- **Slab.** A fixed region cut into *stripes* of `minimum_allocation_size`
  bytes. Its free space is an address-ordered list of spans `(offset, stripes)`.
  - `allocate` rounds a request up to whole stripes and carves them from the
    front of the tightest-fitting span.
  - `free` puts the span back in address order and coalesces it with the
    neighbours it touches.
- **Slab ring.** The slabs shared by one allocator. A request at or above the
  maximum allocation size is declined at once: no step, no scan. Any other
  request on a non-empty ring steps the ring's cycle counter back one slot and
  tries every slab once from there; an empty ring skips the step and the scan.
  If no slab serves, the ring keeps creating fresh slabs until one serves or
  the memory limit is reached.
- **Allocator, configuration and allocation handles.** The builder and its
  `finish` clamp. `allocate` falls back to the global allocator. Dropping a
  handle returns its bytes to its slab.
- **Buffer.** A growable byte buffer over an optional allocation. When full it
  asks for exactly `len + 1` bytes, which the slab rounds up to whole stripes.
  There is no geometric growth.

The model is functional. The main modelling choices are:

- States are immutable datatypes and operations are pure functions.
- A slab's free list is a `seq<Span>`.
- Ring slabs are referenced by their index in the ring's append-only list. In
  the crate they are shared `Arc` clones.
- A buffer's live bytes are a `seq<u8>`.
- Operations that may touch the allocator take it as input and return the new
  allocator state with their result.
- The ring's retry loop is modelled exactly. When growth is unbounded and a
  fresh slab cannot serve, that loop never exits. The ring reports this as an
  explicit `Diverges` outcome.

Two behaviours of the code are worth stating plainly, since a reader might
expect otherwise:

- **Buffer growth.** A full buffer asks for `len + 1` bytes, rounded up to a
  whole stripe; capacity is never doubled.
- **Invalid frees.** `free` does not detect a double free or a misaligned
  free; it re-inserts the span into the free list without any check.

Modules, one per file:

| file | module |
|---|---|
| `wrappers.dfy` | `Wrappers` (`Option`) |
| `slab.dfy` | `Slab`: spans, stripes, `Allocate`, `Free`, byte sets |
| `slab_tiling.dfy` | `SlabTiling`: the free-list and tiling invariants and their preservation |
| `slab_scenario.dfy` | `SlabScenario`: the slab's own test as a lemma |
| `config.dfy` | `AllocatorConfig`: configuration, defaults, setters, the `finish` clamp |
| `slabring.dfy` | `SlabRing`: iterator, cycle, new slabs, ring allocation |
| `allocation.dfy` | `Allocation`: the handle, its length, its bytes, dropping it |
| `allocator.dfy` | `Allocator`: `finish`, `allocate`, release |
| `buffer.dfy` | `Buffer`: the growable buffer |

## Model

| member | source | states |
|---|---|---|
| `Slab.EndBounds` | src/slab.rs:171-173 | `End`, one past a span's last byte, is never before the offset, and with stripes of at least one byte it equals the offset exactly when the span is empty. |
| `Slab.New` | src/slab.rs:31-48 | A new slab has exactly one free span: offset 0, covering all `length / min` stripes. Its free bytes are exactly `[0, stripes * min)`. |
| `Slab.StripesNeeded` | src/slab.rs:58-59 | The request rounded up to whole stripes: the stripes cover at least `length` bytes, and one stripe fewer would not. |
| `Slab.FindTightest` | src/slab.rs:64-79 | The scan finds nothing exactly when no span has enough stripes. Otherwise its span fits, and no fitting span leaves fewer stripes over. Every earlier fitting span leaves strictly more, so the earliest wins a tie and an exact fit ends the scan. |
| `Slab.Choose` | src/slab.rs:62-81 | The span `allocate` carves from: none exactly when nothing fits, otherwise the tightest fit, earliest on a tie. |
| `Slab.Allocate` | src/slab.rs:50-95 | Fails exactly when no span has enough stripes. On success, the block starts at the chosen span's old offset. Its size is the rounded-up request: at least `length`, less than `length + min`, a multiple of `min`. The chosen span loses those stripes from its front and is removed when used up. All other spans are unchanged, and free stripes drop by exactly the stripes handed out. |
| `Slab.MergeNext` | src/slab.rs:141-149 | Absorbing the following span when it starts at the new end changes neither the free stripes nor the free bytes. |
| `Slab.Coalesce` | src/slab.rs:111-138 | The free loop adds exactly the freed span's stripes and bytes to the free list. |
| `Slab.Free` | src/slab.rs:97-139 | Freeing `length` bytes at `offset` adds `length / min` stripes and exactly those bytes to the free space. The slab's size and stripe size are unchanged. |
| `SlabTiling.NewWellFormed` | src/slab.rs:31-48 | A slab of at least one stripe starts with a well-formed free list: spans non-empty, inside the slab, strictly ordered and never adjacent. |
| `SlabTiling.AllocateCarves` | src/slab.rs:81-91 | A successful allocation keeps the free list well formed. The block's bytes were free, and the new free bytes are the old ones minus exactly the block. |
| `SlabTiling.CoalesceSkips` | src/slab.rs:111-135 | The free loop passes over every span that ends strictly before the freed span. |
| `SlabTiling.MergeWithPrevious` | src/slab.rs:112-120 | When the freed span touches its predecessor, merging into it (and then into the successor if that touches too) keeps the list ordered, non-adjacent and in bounds. |
| `SlabTiling.MergeWithNext` | src/slab.rs:121-129 | When the freed span touches only its successor, extending the successor backwards keeps the list ordered, non-adjacent and in bounds. |
| `SlabTiling.InsertAlone` | src/slab.rs:131-133 | When the freed span touches neither neighbour, inserting it before the first later span keeps the list ordered, non-adjacent and in bounds. |
| `SlabTiling.AppendAlone` | src/slab.rs:137-138 | When the freed span lies past every span and does not touch the last one, appending it keeps the list ordered, non-adjacent and in bounds. |
| `SlabTiling.FreeKeepsWellFormed` | src/slab.rs:97-139 | Freeing a run of at least one stripe keeps the free list strictly ordered, never adjacent and in bounds. The run must lie inside the slab and overlap no free span. |
| `SlabTiling.ZeroLengthFreeBreaksOrder` | src/slab.rs:105-138 | A zero-byte allocation leaves the free list as it was. Freeing it inserts a zero-stripe span at an existing span's offset, and the list is no longer strictly ordered. |
| `SlabTiling.NewTiling` | src/slab.rs:31-48 | A new slab of at least one stripe is tiled by its free list with no live blocks. Its one span starts at offset 0, a stripe boundary. |
| `SlabTiling.AllocateKeepsTiling` | src/slab.rs:81-91 | An allocation keeps the tiling, with the new block added to the live ones. The tiling means: free spans and live blocks are pairwise disjoint, together cover the slab's whole stripes, sum to the total, and all start on stripe boundaries. The new block starts on a stripe boundary and overlaps no other live block. |
| `SlabTiling.FreeKeepsTiling` | src/slab.rs:97-139 | Freeing a live block of at least one stripe keeps the tiling, alignment included, with that block removed from the live ones. |
| `SlabTiling.NewAligned` | src/slab.rs:31-48 | A new slab's free list starts on a stripe boundary. |
| `SlabTiling.AllocateAligned` | src/slab.rs:81-91 | When every free span starts on a stripe boundary, the block handed out starts on one too, and so does every span left. A partly used span's rest starts whole stripes further on. |
| `SlabTiling.CoalesceAligned` | src/slab.rs:111-138 | The free loop keeps every span on a stripe boundary when the freed span starts on one: merged spans keep an old span's or the freed span's start. |
| `SlabTiling.FreeAligned` | src/slab.rs:97-139 | Freeing at a stripe boundary keeps every free span on a stripe boundary. |
| `SlabScenario.BasicTests` | src/slab.rs:176-208 | With a 64-byte slab of 16-byte stripes: four small requests take one stripe each, and a fifth fails. After the out-of-order frees, the three middle stripes coalesce and serve 48 bytes. After freeing everything, all 64 bytes come back as one span, are allocated at once and freed again. Each step's free list is given. |
| `AllocatorConfig.DefaultIsClamped` | src/allocator.rs:39-48 | The defaults are minimum 16, maximum 16384, no memory limit and slab size 262144. Both clamps leave them unchanged. |
| `AllocatorConfig.WithMaximumAllocationSize` | src/allocator.rs:51-54 | Sets the maximum and changes no other field. |
| `AllocatorConfig.WithMinimumAllocationSize` | src/allocator.rs:55-58 | Sets the minimum and changes no other field. |
| `AllocatorConfig.WithMemoryLimit` | src/allocator.rs:59-62 | Sets the memory limit and changes no other field. |
| `AllocatorConfig.WithBatchAllocationSize` | src/allocator.rs:63-66 | Sets the slab size and changes no other field. |
| `AllocatorConfig.UsableSize` | src/slab.rs:31-32 | The bytes that whole stripes cover in one slab: at most the slab size, and less than one stripe short of it. |
| `AllocatorConfig.ClampAsWritten` | src/allocator.rs:68-71 | As written, `finish` leaves the maximum at most the slab size. The maximum is unchanged if it was already at most the slab size, and is otherwise set to exactly the slab size. |
| `AllocatorConfig.Clamp` | src/allocator.rs:68-71 | The corrected clamp leaves every accepted request able to fit a fresh slab. It changes nothing when that already holds, and otherwise caps the maximum at the usable size. |
| `AllocatorConfig.ClampsAgreeOnWholeStripes` | src/allocator.rs:68-71 | When the slab size is a whole number of stripes, the two clamps agree. |
| `SlabRing.Next` | src/slabring.rs:121-149 | The iterator step: the returned slot is in range, and the iterator records it. When the iterator stops, its state is unchanged. |
| `SlabRing.Collect` | src/slabring.rs:121-149 | Every slot the iterator hands out is in range, and there are exactly as many as it has left. |
| `SlabRing.CollectFrom` | src/slabring.rs:126-138 | After slot `p`, the iterator hands out `p+1 … len-1, 0 … start-1`, or `p+1 … start-1` when `p` is before `start`. |
| `SlabRing.ScanVisitsEverySlotOnce` | src/slabring.rs:121-149 | For `start < len`, a fresh iterator yields `start … len-1, 0 … start-1`. That is every slot exactly once, beginning at `start`. |
| `SlabRing.EmptyScanVisitsNothing` | src/slabring.rs:140-142 | With no slabs the iterator yields nothing. |
| `SlabRing.New` | src/slabring.rs:27-37 | A new ring holds no slabs and is consistent with its configuration. |
| `SlabRing.NextCycle` | src/slabring.rs:89-91 | The new cycle is `cycle - 1`, wrapping to `len - 1`. It equals `(cycle + len - 1) mod len` and stays below `len`. |
| `SlabRing.Iter` | src/slabring.rs:83-112 | With no slabs the cycle is untouched and the iterator starts at 0. Otherwise the cycle steps back one slot and the iterator starts there. |
| `SlabRing.NewSlab` | src/slabring.rs:66-81 | Appends exactly one fresh slab, and only when there is no limit or `len * slab_size < limit`. Otherwise nothing is returned. |
| `SlabRing.FirstServing` | src/slabring.rs:42-46 | Reference definition: the first position in the scan order whose slab has a span wide enough. Every earlier slab has none. |
| `SlabRing.Scan` | src/slabring.rs:42-46 | Driving the iterator finds a slab exactly when the reference does, and it is the same slab. The slab's own `allocate` produced the result. |
| `SlabRing.Grow` | src/slabring.rs:50-60 | The retry loop ends in one of three ways, spelled out by `GrowOutcome`. (1) A fresh slab, appended last, serves the request. (2) The limit is reached, and every slab created on the way failed. (3) It never ends: growth is unbounded and a fresh slab cannot serve. |
| `SlabRing.Allocate` | src/slabring.rs:39-64 | Requests at or above the maximum are declined with the ring untouched. A served block is the request rounded up to whole stripes. The ring keeps its configuration and only gains slabs. |
| `SlabRing.FreshFails` | src/slabring.rs:50-60 | A fresh slab that cannot serve stays in the ring: whatever the loop ends in from the grown ring, it ends in from the ring before, with every old slab kept. |
| `SlabRing.ServesFirstInRingOrder` | src/slabring.rs:39-60 | After the cycle steps back, the first slab in ring order with room serves the request, and no other slab changes. The ring grows only when no existing slab has room. |
| `SlabRing.EmptyRingGrows` | src/slabring.rs:83-87 | An empty ring goes straight to the retry loop with its cycle untouched. |
| `SlabRing.FreshSlabServes` | src/slabring.rs:50-55 | A fresh slab serves a request exactly when `ceil(length / min) <= slab_size / min`. |
| `SlabRing.FitsServesFresh` | src/slabring.rs:50-55 | When the maximum is within the usable size, every accepted request fits a fresh slab. |
| `SlabRing.FitsNeverDiverges` | src/slabring.rs:50-60 | When the configuration fits, ring allocation always returns. |
| `SlabRing.DivergenceRepeats` | src/slabring.rs:50-60 | A diverging retry loop is stuck. After it appends a slab, it is in the same state again: it can still grow, and the new slab still cannot serve. |
| `Allocation.Len` | src/allocation.rs:50-52 | The length is the size recorded when the handle was made, for slab and global handles alike. |
| `Allocation.AsSlice` | src/allocation.rs:55-70 | The view has exactly `len()` bytes: the handle's own bytes of its region. |
| `Allocation.Drop` | src/allocation.rs:73-82 | Dropping a slab handle frees its own offset and size in its own slab and changes no other slab. Dropping a global handle touches no slab. |
| `Allocation.DropReturnsBlock` | src/allocation.rs:73-76 | Dropping a live slab handle returns exactly its block: the slab stays tiled with that block gone from the live ones. |
| `Allocator.Build` | src/allocator.rs:11-13 | The builder starts from the defaults, which fit. |
| `Allocator.FinishAsWritten` | src/allocator.rs:68-75 | As written, `finish` gives an empty ring configured by exactly the as-written clamp: the maximum is at most the slab size, and the configuration is unchanged when the maximum was already within it. |
| `Allocator.Finish` | src/allocator.rs:68-75 | The corrected `finish` gives an empty ring configured by exactly the corrected clamp, so its configuration fits. Its maximum is at most both the slab size and the requested maximum, and every allocation returns. |
| `Allocator.DefaultAllocator` | src/allocator.rs:24-28 | The default allocator finishes the defaults with the clamp as written; it is valid, empty, and the same as finishing with the corrected clamp. |
| `Allocator.Allocate` | src/allocator.rs:15-21 | Always returns when the configuration fits. A request at or above the maximum gets a global handle of exactly `length` bytes and leaves the allocator unchanged. A request the ring declines after scanning gets such a handle too, and the allocator keeps the ring's stepped cycle and new slabs. A served request gets a handle naming the serving slab and the block's offset and size, and the allocator takes the ring as the scan or growth left it. Either way the handle holds at least `length` bytes, less than `length + min`. |
| `Allocator.Release` | src/allocation.rs:73-82 | Dropping an issued handle keeps the ring consistent. The handle's own slab frees the handle's offset and size, no other slab changes, and a global handle changes nothing. |
| `Allocator.FinishAsWrittenDiverges` | src/allocator.rs:68-71 | With slab size 100 and the default 16-byte stripes, the clamp as written keeps the maximum at 100, and allocating 97 bytes never returns. |
| `Allocator.DeclineKeepsRingWork` | src/slabring.rs:40-61 | When the ring declines a request below the maximum, the returned allocator keeps the cycle the scan stepped back to, every slab it held, and the slabs created while growing; no more slabs fit under the limit. |
| `Allocator.FinishDeclinesOversized` | src/allocator.rs:68-71 | With the corrected clamp, the same configuration gets maximum 96, and allocating 97 bytes returns a global handle. |
| `Buffer.Capacity` | src/buffer.rs:69-72 | The capacity is 0 without an allocation, and otherwise the allocation's length. |
| `Buffer.New` | src/buffer.rs:18-24 | A new buffer is empty, has capacity 0, and holds its allocator. |
| `Buffer.Empty` | src/buffer.rs:9-14 | The derived default buffer is empty, has capacity 0, and holds no allocator. |
| `Buffer.Obtain` | src/buffer.rs:26-31 | A buffer with an allocator gets exactly what that allocator's `allocate` returns, handle and new allocator state. One without gets a global allocation of exactly `n` bytes. The result holds at least `n` bytes, less than `n + min`. |
| `Buffer.WithCapacity` | src/buffer.rs:34-40 | The buffer is empty and pooled. Its allocation and the new allocator are exactly what `Buffer.Obtain` gives for `capacity`. The capacity is at least the request and less than one stripe over. |
| `Buffer.WithLen` | src/buffer.rs:41-48 | The buffer has exactly `length` bytes, from the fresh allocation's memory, within its capacity. Its allocation and the new allocator are exactly what `Buffer.Obtain` gives for `length`. |
| `Buffer.Len` | src/buffer.rs:50-53 | The number of live bytes, zero exactly when the buffer holds none. |
| `Buffer.IsEmpty` | src/buffer.rs:65-67 | True exactly when the buffer holds no bytes. |
| `Buffer.Clear` | src/buffer.rs:60-62 | Length becomes 0. Capacity and allocation are unchanged, and validity is kept. |
| `Buffer.ReserveCapacity` | src/buffer.rs:94-105 | A no-op when the capacity already suffices. Otherwise `Buffer.Regrown` holds: the new allocation is obtained first and becomes the buffer's, then the old one is released to the allocator that issued the new one. The capacity reaches the request, at most one stripe over, and the bytes are preserved. Capacity never shrinks, and `len <= capacity` holds after. |
| `Buffer.ExtendCapacityBy` | src/buffer.rs:107-109 | Capacity grows by at least the amount asked, and the bytes are preserved. Asking for nothing changes nothing. Asking for more regrows the buffer to `capacity + additional` as `Buffer.Regrown` describes, less than one stripe over. |
| `Buffer.PreallocateFor` | src/buffer.rs:111-113 | Capacity reaches `len + additional`, and the bytes are preserved. With room, nothing changes. Otherwise the buffer regrows to `len + additional` as `Buffer.Regrown` describes, less than one stripe over. |
| `Buffer.SetLen` | src/buffer.rs:55-58 | Length becomes `n`, within capacity. The old prefix is kept, and new bytes are whatever the memory held. Within capacity, nothing is reallocated. Past it, the buffer regrows to `n` as `Buffer.Regrown` describes, less than one stripe over. |
| `Buffer.Push` | src/buffer.rs:115-122 | Contents become `old ++ [b]`. With room to spare, nothing is reallocated. When full, the allocator and allocation are those of `Buffer.PreallocateFor` for one byte, so the buffer regrows to `len + 1`. The new capacity is between `len + 1` and `len + min`: no doubling. |
| `Buffer.PushAll` | src/buffer.rs:128-130 | Pushing each byte in turn appends them all, and capacity never shrinks. With room for all the bytes, nothing is reallocated. Otherwise the final capacity is less than `len + count + min`. |
| `Buffer.Extend` | src/buffer.rs:124-131 | Contents become `old ++ bytes` for any size hint, with capacity at least `len + hint`. When both the hint and the bytes fit, nothing is reallocated. |
| `Buffer.ExtendFromSlice` | src/buffer.rs:133-139 | Contents become `old ++ bytes`. With room, nothing is reallocated. Otherwise the allocator and allocation are those of `Buffer.PreallocateFor` for the slice, so the buffer regrows once to `len + bytes.len()`, less than one stripe over. |
| `Buffer.Write` | src/buffer.rs:180-184 | The result is `bytes.len()`, and the allocator and buffer are exactly those `extend_from_slice` gives. |
| `Buffer.ExtendAgreesWithSlice` | src/buffer.rs:124-139 | `extend` and `extend_from_slice` leave the same bytes. |
| `Buffer.BasicTests` | src/buffer.rs:191-211 | For any valid allocator: push `h`, extend with `ello`, then append `, world!`. The steps give `h`, `hello` and `hello, world!`, and the new buffer is empty. |
| `Buffer.TestAllocatorIsValid` | src/buffer.rs:193-197 | The test's allocator, with 4-byte stripes and finished as written, is valid and the same as finishing with the corrected clamp. |

## Left out

- Concurrency: the `Mutex`, the `RwLock`, the atomic cycle compare-exchange loop, `Arc` reference counting and `Send`/`Sync`. Every operation is a sequential state update.
- `Slab.Allocate`: `try_lock` failing under contention (src/slab.rs:61) is not modelled. The lock is always taken, so the model never returns `None` for contention.
- Raw memory is not modelled: pointers, `offset_from`, `alloc_zeroed`, `dealloc` and `Layout` errors. Byte offsets stand in for pointers. `finish`, `SlabRing::new` and `Allocation::global` cannot fail in the model.
- Integer width: `usize` overflow is not modelled, for example in `length + min - 1` or `entries.len() * slab_size`. Integers are unbounded.
- A minimum allocation size of 0 is not modelled. The crate divides by it and panics. `Slab`, `SlabRing.Valid` and `Allocator.Finish` require at least 1.
- `SlabTiling.FreeKeepsWellFormed`, `SlabTiling.FreeKeepsTiling` and `Allocation.DropReturnsBlock` require the freed block to cover at least one stripe. A zero-byte allocation freed later breaks the strict order, shown by `SlabTiling.ZeroLengthFreeBreaksOrder`.
- `SlabTiling.NewWellFormed` and `SlabTiling.NewTiling` require the slab to hold at least one stripe. A shorter slab starts with a zero-stripe span.
- Double and misaligned frees: the crate does not detect them. The tiling lemmas take disjointness as a precondition, and `SlabTiling.FreeAligned` takes a stripe-aligned offset. `SlabTiling.WellFormed` does not include alignment, because `SlabTiling.FreeKeepsWellFormed` holds for any in-bounds free, aligned or not.
- Bytes beyond a buffer's length after growth are unspecified, because reused slab memory is not re-zeroed. `Buffer.SetLen` and `Buffer.WithLen` take them as a `stale` parameter.
- `Allocation.AsSlice` takes the region the handle lives in as a parameter. The contents of global memory are not tracked.
- `Buffer.Valid`, and every buffer operation through it, requires an allocator whose configuration fits. A buffer over an as-written allocator whose configuration does not fit is not modelled. `Allocator.FinishAsWrittenDiverges` shows that such configurations exist and that allocating from them fails to terminate.
- `Buffer.Extend` receives the iterator as a byte sequence plus its size hint.
- The views `Deref`, `DerefMut`, `AsRef`, `AsMut`, `Borrow` and `BorrowMut`, `Buffer::as_slice`/`as_slice_mut`, `Allocation::address` and `Write::flush` are not separate members. A buffer's slice is its `contents`.
- The ring's never-ending retry loop is not run. It is the `Diverges` outcome, and `Allocator.Allocate` returns `None` only in that case.

## Findings

| source | as written | input that shows it | evidently intended | confidence | as-written member | corrected member |
|---|---|---|---|---|---|---|
| src/allocator.rs:68-71 | `finish` caps `maximum_allocation_size` at `slab_size`. A fresh slab only has `slab_size / min * min` usable bytes. | `batch_allocation_size(100)` with the default 16-byte stripes and no memory limit, then `allocate(97)`. The request needs 7 stripes and a fresh slab has 6, so the loop at src/slabring.rs:50-60 creates slabs forever. | Cap the maximum at the bytes whole stripes cover, so every accepted request fits a fresh slab. | high; not executed | `Allocator.FinishAsWrittenDiverges` | `Allocator.Finish` |

=== FILE: allocation.dfy ===
/**
 * An allocation handle: either a block carved from one of the ring's slabs or
 * a block from the global allocator. Dropping it gives a slab block back to
 * the slab it came from.
 */
module Allocation {
  import Slab
  import SlabTiling

  newtype u8 = x: int | 0 <= x < 256

  /** `slab` is the index of the originating slab in the ring's entries. */
  datatype Allocation =
    | SlabAllocation(slab: nat, offset: nat, size: nat)
    | GlobalAllocation(size: nat)

  /** The size recorded when the handle was made, whichever its source. */
  function Len(a: Allocation): (n: nat)
    ensures a.SlabAllocation? ==> n == a.size
    ensures a.GlobalAllocation? ==> n == a.size
  {
    match a
    case SlabAllocation(_, _, size) => size
    case GlobalAllocation(size) => size
  }

  /** Where the handle's bytes start in its region: the slab for a slab block, its own memory otherwise. */
  function Start(a: Allocation): nat {
    match a
    case SlabAllocation(_, offset, _) => offset
    case GlobalAllocation(_) => 0
  }

  /**
   * The handle's bytes, read out of the region they live in. The same view
   * serves `as_slice` and `as_slice_mut`.
   */
  function AsSlice(a: Allocation, region: seq<u8>): (r: seq<u8>)
    requires Start(a) + Len(a) <= |region|
    ensures |r| == Len(a)
    ensures forall k :: 0 <= k < |r| ==> r[k] == region[Start(a) + k]
  {
    region[Start(a)..Start(a) + Len(a)]
  }

  /** The slab entries after the handle is dropped. */
  function Drop(entries: seq<Slab.Slab>, a: Allocation): (r: seq<Slab.Slab>)
    requires a.SlabAllocation? ==> a.slab < |entries| && entries[a.slab].minimumAllocationSize >= 1
    ensures |r| == |entries|
    ensures a.GlobalAllocation? ==> r == entries
    ensures a.SlabAllocation? ==>
      && r[a.slab] == Slab.Free(entries[a.slab], a.offset, a.size)
      && forall j :: 0 <= j < |entries| && j != a.slab ==> r[j] == entries[j]
  {
    match a
    case SlabAllocation(slab, offset, size) => entries[slab := Slab.Free(entries[slab], offset, size)]
    case GlobalAllocation(_) => entries
  }

  /**
   * Dropping a live slab block returns exactly its bytes to its slab: the
   * slab still tiles with that block gone from the live ones.
   */
  lemma DropReturnsBlock(entries: seq<Slab.Slab>, a: Allocation, live: seq<Slab.Block>, k: nat)
    requires a.SlabAllocation? && a.slab < |entries| && entries[a.slab].minimumAllocationSize >= 1
    requires SlabTiling.Tiling(entries[a.slab], live)
    requires k < |live| && live[k] == Slab.Block(a.offset, a.size) && a.size >= 1
    ensures SlabTiling.Tiling(Drop(entries, a)[a.slab], live[..k] + live[k+1..])
    ensures Slab.FreeStripes(Drop(entries, a)[a.slab].freeSpans)
      == Slab.FreeStripes(entries[a.slab].freeSpans) + a.size / entries[a.slab].minimumAllocationSize
  {
    SlabTiling.FreeKeepsTiling(entries[a.slab], live, k);
  }
}

=== FILE: allocator.dfy ===
/**
 * The allocator front end: a configuration builder whose `finish` creates the
 * slab ring, and an `allocate` that falls back to the global allocator
 * whenever the ring declines a request.
 */
module Allocator {
  import opened Wrappers
  import opened AllocatorConfig
  import Slab
  import SlabRing
  import opened Allocation

  datatype Allocator = Allocator(ring: SlabRing.Ring)

  /** The ring is consistent and its configuration lets every accepted request fit a fresh slab. */
  ghost predicate Valid(a: Allocator) {
    SlabRing.Valid(a.ring) && Fits(a.ring.config)
  }

  /** The handle was issued by this allocator: a slab block names one of its slabs. */
  predicate Owns(a: Allocator, x: Allocation) {
    x.SlabAllocation? ==> x.slab < |a.ring.entries|
  }

  /** `Allocator::build`: the builder starts from the defaults. */
  function Build(): (c: Config)
    ensures c == Default()
    ensures Fits(c)
  {
    DefaultIsClamped();
    Default()
  }

  /**
   * `finish` as written: the maximum is capped at the slab size, which can
   * still exceed the bytes whole stripes cover in one slab.
   */
  function FinishAsWritten(c: Config): (a: Allocator)
    requires c.minimumAllocationSize >= 1
    ensures SlabRing.Valid(a.ring) && |a.ring.entries| == 0
    ensures a.ring.config.maximumAllocationSize <= c.slabSize
    ensures c.maximumAllocationSize <= c.slabSize ==> a.ring.config == c
    ensures a.ring.config == ClampAsWritten(c)
  {
    Allocator(SlabRing.New(ClampAsWritten(c)))
  }

  /**
   * `finish` with the cap at the bytes whole stripes cover, so every request
   * the ring accepts fits a fresh slab and allocation always returns.
   */
  function Finish(c: Config): (a: Allocator)
    requires c.minimumAllocationSize >= 1
    ensures Valid(a) && |a.ring.entries| == 0
    ensures a.ring.config.maximumAllocationSize <= c.slabSize
    ensures a.ring.config.maximumAllocationSize <= c.maximumAllocationSize
    ensures Fits(c) ==> a.ring.config == c
    ensures a.ring.config == Clamp(c)
    ensures forall length :: Allocate(a, length).Some?
  {
    Allocator(SlabRing.New(Clamp(c)))
  }

  /**
   * `Allocator::default`: the default configuration, finished with the clamp
   * as written; the defaults fit, so that clamp is the corrected one here.
   */
  function DefaultAllocator(): (a: Allocator)
    ensures Valid(a) && a.ring.config == Default() && |a.ring.entries| == 0
    ensures a == Finish(Build())
  {
    DefaultIsClamped();
    FinishAsWritten(Build())
  }

  /**
   * Serves from the ring when it can and from the global allocator when the
   * ring declines; `None` only when the ring's retry loop never returns. A
   * decline keeps what the ring did on the way: the stepped-back cycle and
   * any slabs it created stay in the returned allocator.
   */
  function Allocate(a: Allocator, length: nat): (r: Option<(Allocator, Allocation)>)
    requires SlabRing.Valid(a.ring)
    ensures r.None? <==> SlabRing.Allocate(a.ring, length).Diverges?
    ensures Fits(a.ring.config) ==> r.Some?
    ensures r.Some? ==>
      var (a', x) := r.value;
      && SlabRing.Valid(a'.ring) && a'.ring.config == a.ring.config
      && |a.ring.entries| <= |a'.ring.entries|
      && Owns(a', x)
      && length <= Len(x) < length + a.ring.config.minimumAllocationSize
    ensures r.Some? && SlabRing.Allocate(a.ring, length).Declined? ==>
      r.value == (Allocator(SlabRing.Allocate(a.ring, length).ring), GlobalAllocation(length))
    ensures length >= a.ring.config.maximumAllocationSize ==>
      r == Some((a, GlobalAllocation(length)))
    ensures r.Some? && SlabRing.Allocate(a.ring, length).Served? ==>
      var o := SlabRing.Allocate(a.ring, length);
      r.value == (Allocator(o.ring), SlabAllocation(o.slab, o.block.offset, o.block.size))
  {
    var o := SlabRing.Allocate(a.ring, length);
    SlabRing.FitsNeverDiverges(a.ring, length);
    match o
    case Served(ring, slab, block) =>
      Some((Allocator(ring), SlabAllocation(slab, block.offset, block.size)))
    case Declined(ring) => Some((Allocator(ring), GlobalAllocation(length)))
    case Diverges => None
  }

  /**
   * A request below the maximum that the ring declines still leaves its mark:
   * the cycle is stepped back as the scan started, every slab it held is kept,
   * and the slabs created on the way stay until the limit allows no more.
   */
  lemma DeclineKeepsRingWork(a: Allocator, length: nat)
    requires SlabRing.Valid(a.ring) && length < a.ring.config.maximumAllocationSize
    requires SlabRing.Allocate(a.ring, length).Declined?
    ensures var a' := Allocate(a, length).value.0;
      var n := |a.ring.entries|;
      && a'.ring.cycle == (if n == 0 then a.ring.cycle else SlabRing.NextCycle(a.ring.cycle, n))
      && n <= |a'.ring.entries| && a'.ring.entries[..n] == a.ring.entries
      && !SlabRing.CanGrow(a'.ring)
  {
    if |a.ring.entries| == 0 {
      SlabRing.EmptyRingGrows(a.ring, length);
    } else {
      SlabRing.ServesFirstInRingOrder(a.ring, length);
    }
  }

  /** Dropping a handle this allocator issued; only its slab changes. */
  function Release(a: Allocator, x: Allocation): (a': Allocator)
    requires SlabRing.Valid(a.ring) && Owns(a, x)
    ensures SlabRing.Valid(a'.ring) && a'.ring.config == a.ring.config && a'.ring.cycle == a.ring.cycle
    ensures |a'.ring.entries| == |a.ring.entries|
    ensures x.GlobalAllocation? ==> a' == a
    ensures x.SlabAllocation? ==>
      && a'.ring.entries[x.slab] == Slab.Free(a.ring.entries[x.slab], x.offset, x.size)
      && forall j :: 0 <= j < |a.ring.entries| && j != x.slab ==> a'.ring.entries[j] == a.ring.entries[j]
  {
    var entries := Drop(a.ring.entries, x);
    var a' := Allocator(a.ring.(entries := entries));
    assert forall j :: 0 <= j < |entries| ==> SlabRing.Uniform(a.ring.config, entries[j]);
    a'
  }

  /**
   * The `finish` clamp as written lets a request through that no slab can
   * hold: with 100-byte slabs and 16-byte stripes a 97-byte request needs
   * 7 stripes, a fresh slab has 6, and without a memory limit the ring keeps
   * creating slabs forever.
   */
  lemma FinishAsWrittenDiverges()
    ensures var c := WithBatchAllocationSize(Default(), 100);
      var a := FinishAsWritten(c);
      && a.ring.config.maximumAllocationSize == 100
      && !Fits(a.ring.config)
      && SlabRing.Allocate(a.ring, 97) == SlabRing.Diverges
      && Allocate(a, 97).None?
  {
    var c := WithBatchAllocationSize(Default(), 100);
    var a := FinishAsWritten(c);
    assert Slab.StripesNeeded(97, 16) == 7;
    SlabRing.FreshSlabServes(a.ring.config, 97);
    assert Slab.Allocate(Slab.New(100, 16), 97).None?;
  }

  /** The corrected `finish` serves the same request from the global allocator. */
  lemma FinishDeclinesOversized()
    ensures var a := Finish(WithBatchAllocationSize(Default(), 100));
      && a.ring.config.maximumAllocationSize == 96
      && Allocate(a, 97) == Some((a, GlobalAllocation(97)))
  {
    var c := WithBatchAllocationSize(Default(), 100);
    assert UsableSize(c) == 96;
  }
}

=== FILE: buffer.dfy ===
/**
 * A growable byte buffer over an optional allocation. The buffer's live bytes
 * are `contents`; its capacity is the length of its allocation. When it runs
 * out of room it asks its allocator for exactly the bytes it needs, which the
 * slab rounds up to whole stripes: there is no geometric growth.
 */
module Buffer {
  import opened Wrappers
  import opened AllocatorConfig
  import Allocation
  import Allocator

  type u8 = Allocation.u8

  /**
   * `pooled` tells whether the buffer holds an allocator (`Buffer::new` and
   * the constructors taking one) or none (the derived default), in which case
   * it allocates from the global allocator.
   */
  datatype Buffer = Buffer(pooled: bool, allocation: Option<Allocation.Allocation>, contents: seq<u8>)

  /** The number of live bytes; zero exactly when the buffer holds none. */
  function Len(b: Buffer): (n: nat)
    ensures n == 0 <==> b.contents == []
  {
    |b.contents|
  }

  function Capacity(b: Buffer): (n: nat)
    ensures b.allocation.None? ==> n == 0
    ensures b.allocation.Some? ==> n == Allocation.Len(b.allocation.value)
  {
    match b.allocation
    case None => 0
    case Some(x) => Allocation.Len(x)
  }

  /** The stripe size the allocator rounds every request up to. */
  function Stripe(a: Allocator.Allocator): nat {
    a.ring.config.minimumAllocationSize
  }

  /**
   * The buffer's allocation was issued by the allocator, a buffer without an
   * allocator only ever holds global allocations, and the live bytes fit.
   */
  ghost predicate Valid(a: Allocator.Allocator, b: Buffer) {
    && Allocator.Valid(a)
    && (b.allocation.Some? ==> Allocator.Owns(a, b.allocation.value))
    && (!b.pooled ==> b.allocation.None? || b.allocation.value.GlobalAllocation?)
    && Len(b) <= Capacity(b)
  }

  /** Whatever allocator state `a'` grew into from `a`: same configuration, no slab lost. */
  ghost predicate Successor(a: Allocator.Allocator, a': Allocator.Allocator) {
    a'.ring.config == a.ring.config && |a.ring.entries| <= |a'.ring.entries|
  }

  function New(a: Allocator.Allocator): (b: Buffer)
    requires Allocator.Valid(a)
    ensures Valid(a, b) && b.pooled
    ensures Len(b) == 0 && Capacity(b) == 0
  {
    Buffer(true, None, [])
  }

  /** The derived `Default`: no allocator and no allocation. */
  function Empty(): (b: Buffer)
    ensures !b.pooled && Len(b) == 0 && Capacity(b) == 0
    ensures forall a :: Allocator.Valid(a) ==> Valid(a, b)
  {
    Buffer(false, None, [])
  }

  /** The private `allocate`: from the allocator when the buffer has one, globally otherwise. */
  function Obtain(a: Allocator.Allocator, pooled: bool, n: nat): (r: (Allocator.Allocator, Allocation.Allocation))
    requires Allocator.Valid(a)
    ensures Allocator.Valid(r.0) && Successor(a, r.0) && Allocator.Owns(r.0, r.1)
    ensures n <= Allocation.Len(r.1) < n + Stripe(a)
    ensures !pooled ==> r == (a, Allocation.GlobalAllocation(n))
    ensures pooled ==> Allocator.Allocate(a, n) == Some(r)
  {
    if pooled then Allocator.Allocate(a, n).value else (a, Allocation.GlobalAllocation(n))
  }

  function WithCapacity(a: Allocator.Allocator, capacity: nat): (r: (Allocator.Allocator, Buffer))
    requires Allocator.Valid(a)
    ensures Valid(r.0, r.1) && Successor(a, r.0) && r.1.pooled
    ensures Len(r.1) == 0
    ensures capacity <= Capacity(r.1) < capacity + Stripe(a)
    ensures r.1.allocation.Some? && Obtain(a, true, capacity) == (r.0, r.1.allocation.value)
  {
    var (a', x) := Obtain(a, true, capacity);
    (a', Buffer(true, Some(x), []))
  }

  /** `with_len`: the exposed bytes are whatever the fresh allocation held, given as `stale`. */
  function WithLen(a: Allocator.Allocator, length: nat, stale: seq<u8>): (r: (Allocator.Allocator, Buffer))
    requires Allocator.Valid(a) && |stale| == length
    ensures Valid(r.0, r.1) && Successor(a, r.0) && r.1.pooled
    ensures Len(r.1) == length && r.1.contents == stale
    ensures length <= Capacity(r.1) < length + Stripe(a)
    ensures r.1.allocation.Some? && Obtain(a, true, length) == (r.0, r.1.allocation.value)
  {
    var (a', x) := Obtain(a, true, length);
    (a', Buffer(true, Some(x), stale))
  }

  function IsEmpty(b: Buffer): (r: bool)
    ensures r <==> b.contents == []
  {
    Len(b) == 0
  }

  /** `clear` drops the live bytes and keeps the allocation. */
  function Clear(b: Buffer): (r: Buffer)
    ensures Len(r) == 0 && Capacity(r) == Capacity(b)
    ensures r.allocation == b.allocation && r.pooled == b.pooled
    ensures forall a :: Valid(a, b) ==> Valid(a, r)
  {
    b.(contents := [])
  }

  /**
   * Growing `b` to hold `total` bytes ended with allocator `a'` and allocation
   * `x`: `x` was obtained first, then the old allocation, if any, was released
   * to the allocator that issued `x`.
   */
  ghost predicate Regrown(a: Allocator.Allocator, b: Buffer, total: nat, a': Allocator.Allocator, x: Allocation.Allocation)
    requires Valid(a, b)
  {
    var (a1, y) := Obtain(a, b.pooled, total);
    && x == y
    && a' == (if b.allocation.Some? then Allocator.Release(a1, b.allocation.value) else a1)
  }

  /**
   * Makes room for `total` bytes: nothing happens when the capacity already
   * suffices; otherwise a new allocation is obtained first, the live bytes
   * move into it, and the old one is dropped.
   */
  function ReserveCapacity(a: Allocator.Allocator, b: Buffer, total: nat): (r: (Allocator.Allocator, Buffer))
    requires Valid(a, b)
    ensures Valid(r.0, r.1) && Successor(a, r.0)
    ensures r.1.contents == b.contents && r.1.pooled == b.pooled
    ensures Capacity(b) >= total ==> r == (a, b)
    ensures Capacity(b) < total ==> total <= Capacity(r.1) < total + Stripe(a)
    ensures Capacity(b) < total ==> r.1.allocation.Some? && Regrown(a, b, total, r.0, r.1.allocation.value)
    ensures Capacity(b) <= Capacity(r.1)
  {
    if Capacity(b) >= total then (a, b)
    else
      var (a1, x) := Obtain(a, b.pooled, total);
      var a2 := match b.allocation
        case None => a1
        case Some(previous) => Allocator.Release(a1, previous);
      (a2, b.(allocation := Some(x)))
  }

  function ExtendCapacityBy(a: Allocator.Allocator, b: Buffer, additional: nat): (r: (Allocator.Allocator, Buffer))
    requires Valid(a, b)
    ensures Valid(r.0, r.1) && Successor(a, r.0)
    ensures r.1.contents == b.contents && r.1.pooled == b.pooled
    ensures Capacity(b) + additional <= Capacity(r.1)
    ensures additional == 0 ==> r == (a, b)
    ensures additional > 0 ==>
      && Capacity(r.1) < Capacity(b) + additional + Stripe(a)
      && r.1.allocation.Some? && Regrown(a, b, Capacity(b) + additional, r.0, r.1.allocation.value)
  {
    ReserveCapacity(a, b, Capacity(b) + additional)
  }

  function PreallocateFor(a: Allocator.Allocator, b: Buffer, additional: nat): (r: (Allocator.Allocator, Buffer))
    requires Valid(a, b)
    ensures Valid(r.0, r.1) && Successor(a, r.0)
    ensures r.1.contents == b.contents && r.1.pooled == b.pooled
    ensures Len(b) + additional <= Capacity(r.1) && Capacity(b) <= Capacity(r.1)
    ensures Len(b) + additional <= Capacity(b) ==> r == (a, b)
    ensures Capacity(b) < Len(b) + additional ==>
      && Capacity(r.1) < Len(b) + additional + Stripe(a)
      && r.1.allocation.Some? && Regrown(a, b, Len(b) + additional, r.0, r.1.allocation.value)
  {
    ReserveCapacity(a, b, Len(b) + additional)
  }

  /**
   * `set_len`: reserves room for `length` bytes and exposes them; bytes past
   * the old length are whatever the memory held, given as `stale`.
   */
  function SetLen(a: Allocator.Allocator, b: Buffer, length: nat, stale: seq<u8>): (r: (Allocator.Allocator, Buffer))
    requires Valid(a, b) && length <= Len(b) + |stale|
    ensures Valid(r.0, r.1) && Successor(a, r.0) && r.1.pooled == b.pooled
    ensures Len(r.1) == length && length <= Capacity(r.1)
    ensures forall k :: 0 <= k < length && k < Len(b) ==> r.1.contents[k] == b.contents[k]
    ensures forall k :: Len(b) <= k < length ==> r.1.contents[k] == stale[k - Len(b)]
    ensures length <= Capacity(b) ==> r.0 == a && r.1.allocation == b.allocation
    ensures Capacity(b) < length ==>
      && Capacity(r.1) < length + Stripe(a)
      && r.1.allocation.Some? && Regrown(a, b, length, r.0, r.1.allocation.value)
  {
    var (a', b') := ReserveCapacity(a, b, length);
    (a', b'.(contents := (b.contents + stale)[..length]))
  }

  /** Writes `bytes` after the contents, leaving the allocator and the allocation alone. */
  function Append(g: (Allocator.Allocator, Buffer), bytes: seq<u8>): (r: (Allocator.Allocator, Buffer))
    ensures r.0 == g.0 && r.1.allocation == g.1.allocation && r.1.pooled == g.1.pooled
    ensures r.1.contents == g.1.contents + bytes
  {
    (g.0, g.1.(contents := g.1.contents + bytes))
  }

  /** Appends one byte, first growing by exactly one byte's worth of stripes when full. */
  function Push(a: Allocator.Allocator, b: Buffer, byte: u8): (r: (Allocator.Allocator, Buffer))
    requires Valid(a, b)
    ensures Valid(r.0, r.1) && Successor(a, r.0) && r.1.pooled == b.pooled
    ensures r.1.contents == b.contents + [byte]
    ensures Capacity(b) <= Capacity(r.1)
    ensures Len(b) < Capacity(b) ==> r.0 == a && r.1.allocation == b.allocation
    ensures Len(b) == Capacity(b) ==>
      && Len(b) + 1 <= Capacity(r.1) <= Len(b) + Stripe(a)
      && r.0 == PreallocateFor(a, b, 1).0
      && r.1.allocation == PreallocateFor(a, b, 1).1.allocation
  {
    Append(if Len(b) == Capacity(b) then PreallocateFor(a, b, 1) else (a, b), [byte])
  }

  /** The loop of `extend`: one `push` per byte. */
  function PushAll(a: Allocator.Allocator, b: Buffer, bytes: seq<u8>): (r: (Allocator.Allocator, Buffer))
    requires Valid(a, b)
    ensures Valid(r.0, r.1) && Successor(a, r.0) && r.1.pooled == b.pooled
    ensures r.1.contents == b.contents + bytes
    ensures Capacity(b) <= Capacity(r.1)
    ensures Len(b) + |bytes| <= Capacity(b) ==> r.0 == a && r.1.allocation == b.allocation
    ensures Capacity(r.1) == Capacity(b) || Capacity(r.1) < Len(b) + |bytes| + Stripe(a)
    ensures Capacity(b) < Len(b) + |bytes| ==> Capacity(r.1) < Len(b) + |bytes| + Stripe(a)
    decreases |bytes|
  {
    if |bytes| == 0 then (a, b)
    else
      var (a', b') := Push(a, b, bytes[0]);
      var r := PushAll(a', b', bytes[1..]);
      assert b'.contents + bytes[1..] == b.contents + bytes;
      r
  }

  /**
   * `extend` first reserves room for the iterator's lower size hint, which
   * may be anything, then pushes each byte.
   */
  function Extend(a: Allocator.Allocator, b: Buffer, bytes: seq<u8>, sizeHint: nat): (r: (Allocator.Allocator, Buffer))
    requires Valid(a, b)
    ensures Valid(r.0, r.1) && Successor(a, r.0) && r.1.pooled == b.pooled
    ensures r.1.contents == b.contents + bytes
    ensures Len(b) + sizeHint <= Capacity(r.1)
    ensures Len(b) + sizeHint <= Capacity(b) && Len(b) + |bytes| <= Capacity(b) ==>
      r.0 == a && r.1.allocation == b.allocation
  {
    var (a', b') := PreallocateFor(a, b, sizeHint);
    PushAll(a', b', bytes)
  }

  function ExtendFromSlice(a: Allocator.Allocator, b: Buffer, bytes: seq<u8>): (r: (Allocator.Allocator, Buffer))
    requires Valid(a, b)
    ensures Valid(r.0, r.1) && Successor(a, r.0) && r.1.pooled == b.pooled
    ensures r.1.contents == b.contents + bytes
    ensures Len(b) + |bytes| <= Capacity(b) ==> r.0 == a && r.1.allocation == b.allocation
    ensures Capacity(b) < Len(b) + |bytes| ==>
      && Capacity(r.1) < Len(b) + |bytes| + Stripe(a)
      && r.0 == PreallocateFor(a, b, |bytes|).0
      && r.1.allocation == PreallocateFor(a, b, |bytes|).1.allocation
  {
    Append(PreallocateFor(a, b, |bytes|), bytes)
  }

  /** `Write::write` appends the whole slice and reports its length. */
  function Write(a: Allocator.Allocator, b: Buffer, bytes: seq<u8>): (r: (Allocator.Allocator, Buffer, nat))
    requires Valid(a, b)
    ensures Valid(r.0, r.1) && Successor(a, r.0)
    ensures r.1.contents == b.contents + bytes
    ensures r.2 == |bytes|
    ensures (r.0, r.1) == ExtendFromSlice(a, b, bytes)
  {
    var (a', b') := ExtendFromSlice(a, b, bytes);
    (a', b', |bytes|)
  }

  /**
   * `extend` ends with the same bytes as `extend_from_slice`, whatever size
   * hint the iterator gives.
   */
  lemma ExtendAgreesWithSlice(a: Allocator.Allocator, b: Buffer, bytes: seq<u8>, sizeHint: nat)
    requires Valid(a, b)
    ensures Extend(a, b, bytes, sizeHint).1.contents == ExtendFromSlice(a, b, bytes).1.contents
  {
  }

  /**
   * The buffer test, for an allocator of any configuration (the test uses
   * 4-byte stripes): pushing `h`, extending with `ello` and appending
   * `, world!` leaves `hello, world!`.
   */
  lemma BasicTests(a: Allocator.Allocator, s1: (Allocator.Allocator, Buffer), s2: (Allocator.Allocator, Buffer), s3: (Allocator.Allocator, Buffer))
    requires Allocator.Valid(a)
    requires s1 == Push(a, New(a), 104)
    requires s2 == Extend(s1.0, s1.1, [101, 108, 108, 111], 4)
    requires s3 == ExtendFromSlice(s2.0, s2.1, [44, 32, 119, 111, 114, 108, 100, 33])
    ensures IsEmpty(New(a))
    ensures s1.1.contents == [104]
    ensures s2.1.contents == [104, 101, 108, 108, 111]
    ensures s3.1.contents == [104, 101, 108, 108, 111, 44, 32, 119, 111, 114, 108, 100, 33]
  {
    Spell();
  }

  lemma Spell()
    ensures [104 as u8] + [101, 108, 108, 111] == [104, 101, 108, 108, 111]
    ensures [104 as u8, 101, 108, 108, 111] + [44, 32, 119, 111, 114, 108, 100, 33]
      == [104, 101, 108, 108, 111, 44, 32, 119, 111, 114, 108, 100, 33]
  {
  }

  /** The test's allocator: 4-byte stripes, finished as written, which here is the corrected clamp. */
  lemma TestAllocatorIsValid()
    ensures var c := WithMinimumAllocationSize(Default(), 4);
      && Allocator.Valid(Allocator.FinishAsWritten(c))
      && Allocator.FinishAsWritten(c) == Allocator.Finish(c)
  {
  }
}

=== FILE: config.dfy ===
/**
 * The allocator's configuration: the stripe size every request is rounded up
 * to, the size from which requests go straight to the global allocator, an
 * optional cap on the bytes held in slabs, and the size of each slab.
 */
module AllocatorConfig {
  import opened Wrappers

  datatype Config = Config(
    minimumAllocationSize: nat,
    maximumAllocationSize: nat,
    memoryLimit: Option<nat>,
    slabSize: nat)

  function Default(): Config {
    Config(16, 16 * 1024, None, 256 * 1024)
  }

  function WithMaximumAllocationSize(c: Config, size: nat): (r: Config)
    ensures r.maximumAllocationSize == size
    ensures r.minimumAllocationSize == c.minimumAllocationSize
    ensures r.memoryLimit == c.memoryLimit && r.slabSize == c.slabSize
  {
    c.(maximumAllocationSize := size)
  }

  function WithMinimumAllocationSize(c: Config, size: nat): (r: Config)
    ensures r.minimumAllocationSize == size
    ensures r.maximumAllocationSize == c.maximumAllocationSize
    ensures r.memoryLimit == c.memoryLimit && r.slabSize == c.slabSize
  {
    c.(minimumAllocationSize := size)
  }

  function WithMemoryLimit(c: Config, limit: nat): (r: Config)
    ensures r.memoryLimit == Some(limit)
    ensures r.minimumAllocationSize == c.minimumAllocationSize
    ensures r.maximumAllocationSize == c.maximumAllocationSize && r.slabSize == c.slabSize
  {
    c.(memoryLimit := Some(limit))
  }

  /** `batch_allocation_size` sets the size of every slab created afterwards. */
  function WithBatchAllocationSize(c: Config, size: nat): (r: Config)
    ensures r.slabSize == size
    ensures r.minimumAllocationSize == c.minimumAllocationSize
    ensures r.maximumAllocationSize == c.maximumAllocationSize && r.memoryLimit == c.memoryLimit
  {
    c.(slabSize := size)
  }

  /** Bytes of a fresh slab that whole stripes cover: the largest block it can hand out. */
  function UsableSize(c: Config): (n: nat)
    requires c.minimumAllocationSize >= 1
    ensures n <= c.slabSize
    ensures c.slabSize < n + c.minimumAllocationSize
  {
    (c.slabSize / c.minimumAllocationSize) * c.minimumAllocationSize
  }

  /**
   * Every request the ring accepts (shorter than the maximum) fits in a fresh
   * slab; under this condition the ring never loops forever.
   */
  ghost predicate Fits(c: Config) {
    c.minimumAllocationSize >= 1 && c.maximumAllocationSize <= UsableSize(c)
  }

  /** The clamp `finish` applies, as written: the maximum is capped at the slab size. */
  function ClampAsWritten(c: Config): (r: Config)
    ensures r.maximumAllocationSize <= r.slabSize
    ensures r.maximumAllocationSize <= c.maximumAllocationSize
    ensures c.maximumAllocationSize <= c.slabSize ==> r == c
    ensures c.maximumAllocationSize > c.slabSize ==> r.maximumAllocationSize == c.slabSize
    ensures r.minimumAllocationSize == c.minimumAllocationSize
    ensures r.memoryLimit == c.memoryLimit && r.slabSize == c.slabSize
  {
    if c.slabSize < c.maximumAllocationSize then c.(maximumAllocationSize := c.slabSize) else c
  }

  /**
   * The clamp that makes every accepted request fit: the maximum is capped at
   * the bytes whole stripes cover in one slab, the largest value that does.
   */
  function Clamp(c: Config): (r: Config)
    requires c.minimumAllocationSize >= 1
    ensures Fits(r)
    ensures r.maximumAllocationSize <= c.maximumAllocationSize
    ensures Fits(c) ==> r == c
    ensures !Fits(c) ==> r.maximumAllocationSize == UsableSize(c)
    ensures r.minimumAllocationSize == c.minimumAllocationSize
    ensures r.memoryLimit == c.memoryLimit && r.slabSize == c.slabSize
  {
    if UsableSize(c) < c.maximumAllocationSize then c.(maximumAllocationSize := UsableSize(c)) else c
  }

  /**
   * When the slab size is a whole number of stripes the two clamps agree, so
   * the correction changes nothing for such configurations.
   */
  lemma ClampsAgreeOnWholeStripes(c: Config)
    requires c.minimumAllocationSize >= 1
    requires c.slabSize % c.minimumAllocationSize == 0
    ensures Clamp(c) == ClampAsWritten(c)
  {
    assert UsableSize(c) == c.slabSize;
  }

  /**
   * The defaults are 16-byte stripes, a 16 KiB maximum, no memory limit and
   * 256 KiB slabs; they already satisfy both clamps and fit.
   */
  lemma DefaultIsClamped()
    ensures Default().minimumAllocationSize == 16 && Default().maximumAllocationSize == 16384
    ensures Default().memoryLimit == None && Default().slabSize == 262144
    ensures Fits(Default())
    ensures ClampAsWritten(Default()) == Default() && Clamp(Default()) == Default()
  {
    assert UsableSize(Default()) == 256 * 1024;
  }
}

=== FILE: slab.dfy ===
/**
 * A slab: one fixed region of `length` bytes carved into stripes of
 * `minimumAllocationSize` bytes. Its free space is an address-ordered list of
 * spans, each an offset in bytes and a count of whole stripes.
 */
module Slab {
  import opened Wrappers

  /** A run of free stripes starting `offset` bytes into the slab. */
  datatype Span = Span(offset: nat, stripes: nat)

  /** One past the span's last byte. */
  function End(span: Span, min: nat): nat {
    span.offset + span.stripes * min
  }

  /** A span ends at or after its offset, and with real stripes ends there exactly when it is empty. */
  lemma EndBounds(span: Span, min: nat)
    ensures span.offset <= End(span, min)
    ensures min >= 1 ==> span.offset + span.stripes <= End(span, min)
    ensures min >= 1 ==> (End(span, min) == span.offset <==> span.stripes == 0)
  {
    if min >= 1 {
      MulAtLeast(1, min, span.stripes);
    }
  }

  datatype Slab = Slab(length: nat, minimumAllocationSize: nat, freeSpans: seq<Span>)

  /** The byte range a slab allocation carries back to `Free`. */
  datatype Block = Block(offset: nat, size: nat)

  function TotalStripes(s: Slab): nat
    requires s.minimumAllocationSize >= 1
  {
    s.length / s.minimumAllocationSize
  }

  /** Bytes covered by whole stripes; a tail shorter than a stripe is never handed out. */
  function Capacity(s: Slab): nat
    requires s.minimumAllocationSize >= 1
  {
    TotalStripes(s) * s.minimumAllocationSize
  }

  function New(length: nat, min: nat): (s: Slab)
    requires min >= 1
    ensures s.length == length && s.minimumAllocationSize == min
    ensures s.freeSpans == [Span(0, TotalStripes(s))]
    ensures FreeStripes(s.freeSpans) == TotalStripes(s)
    ensures FreeCells(s.freeSpans, min) == Range(0, Capacity(s))
  {
    var s := Slab(length, min, [Span(0, length / min)]);
    assert FreeCells(s.freeSpans, min) == SpanCells(Span(0, length / min), min) + FreeCells([], min);
    s
  }

  /** A request rounded up to whole stripes: the smallest stripe count covering `length` bytes. */
  function StripesNeeded(length: nat, min: nat): (n: nat)
    requires min >= 1
    ensures n * min >= length
    ensures n * min < length + min
  {
    var n := (length + (min - 1)) / min;
    assert (length + (min - 1)) == n * min + (length + (min - 1)) % min;
    n
  }

  // Multiplication facts the solver needs spelled out

  lemma MulAtLeast(a: nat, b: nat, c: nat)
    requires a <= b
    ensures a * c <= b * c
  {
  }

  lemma NeedWithin(length: nat, min: nat, total: nat)
    requires min >= 1 && length < total * min
    ensures StripesNeeded(length, min) <= total
  {
    var need := StripesNeeded(length, min);
    assert need * min < total * min + min == (total + 1) * min;
    if need > total {
      MulAtLeast(total + 1, need, min);
      assert false;
    }
  }

  lemma MulDiv(n: nat, m: nat)
    requires m >= 1
    ensures (n * m) / m == n
  {
    var q := (n * m) / m;
    var r := (n * m) % m;
    assert n * m == q * m + r;
    assert (n - q) * m == r;
    if n - q >= 1 {
      MulAtLeast(1, n - q, m);
    }
  }

  /** Total free stripes recorded in a span list. */
  function FreeStripes(spans: seq<Span>): nat {
    if |spans| == 0 then 0 else spans[0].stripes + FreeStripes(spans[1..])
  }

  // ---------------------------------------------------------------------------
  // Byte sets, used to state tiling and coalescing

  /**
   * `lo <= x < hi` under a name, so that quantifiers over a range's members
   * have a term to trigger on.
   */
  ghost predicate Between(lo: int, x: int, hi: int) {
    lo <= x < hi
  }

  /** The bytes `[lo, hi)`. */
  ghost function Range(lo: int, hi: int): set<int> {
    set x: int | lo <= x < hi && Between(lo, x, hi)
  }

  ghost function SpanCells(span: Span, min: nat): set<int> {
    Range(span.offset, End(span, min))
  }

  ghost function BlockCells(b: Block): set<int> {
    Range(b.offset, b.offset + b.size)
  }

  /** Every byte a span list records as free. */
  ghost function FreeCells(spans: seq<Span>, min: nat): set<int>
    decreases |spans|
  {
    if |spans| == 0 then {} else SpanCells(spans[0], min) + FreeCells(spans[1..], min)
  }

  lemma RangeJoin(a: int, b: int, c: int)
    requires a <= b <= c
    ensures Range(a, b) + Range(b, c) == Range(a, c)
  {
  }

  /** Two spans that touch cover exactly what the merged span covers. */
  lemma JoinCells(a: Span, b: Span, min: nat)
    requires End(a, min) == b.offset
    ensures End(Span(a.offset, a.stripes + b.stripes), min) == End(b, min)
    ensures SpanCells(Span(a.offset, a.stripes + b.stripes), min) == SpanCells(a, min) + SpanCells(b, min)
  {
    assert (a.stripes + b.stripes) * min == a.stripes * min + b.stripes * min;
    RangeJoin(a.offset, b.offset, End(b, min));
  }

  lemma {:induction false} CellsConcat(a: seq<Span>, b: seq<Span>, min: nat)
    ensures FreeCells(a + b, min) == FreeCells(a, min) + FreeCells(b, min)
    ensures FreeStripes(a + b) == FreeStripes(a) + FreeStripes(b)
    decreases |a|
  {
    if |a| == 0 {
      assert a + b == b;
    } else {
      assert (a + b)[1..] == a[1..] + b;
      CellsConcat(a[1..], b, min);
    }
  }

  /** The cells and stripes of a list, split around position `i`. */
  lemma CellsAround(spans: seq<Span>, i: nat, min: nat)
    requires i < |spans|
    ensures FreeCells(spans, min) == FreeCells(spans[..i], min) + SpanCells(spans[i], min) + FreeCells(spans[i+1..], min)
    ensures FreeStripes(spans) == FreeStripes(spans[..i]) + spans[i].stripes + FreeStripes(spans[i+1..])
  {
    assert spans == spans[..i] + ([spans[i]] + spans[i+1..]);
    CellsConcat(spans[..i], [spans[i]] + spans[i+1..], min);
    CellsConcat([spans[i]], spans[i+1..], min);
    assert FreeCells([spans[i]], min) == SpanCells(spans[i], min) + FreeCells([], min);
  }

  /** Replacing position `i` changes the cells and stripes by exactly that span's share. */
  lemma CellsReplace(spans: seq<Span>, i: nat, x: Span, min: nat)
    requires i < |spans|
    ensures FreeCells(spans[i := x], min) == FreeCells(spans[..i], min) + SpanCells(x, min) + FreeCells(spans[i+1..], min)
    ensures FreeStripes(spans[i := x]) == FreeStripes(spans[..i]) + x.stripes + FreeStripes(spans[i+1..])
  {
    var t := spans[i := x];
    CellsAround(t, i, min);
    assert t[..i] == spans[..i];
    assert t[i+1..] == spans[i+1..];
  }

  lemma CellsSingle(x: Span, min: nat)
    ensures FreeCells([x], min) == SpanCells(x, min)
    ensures FreeStripes([x]) == x.stripes
  {
    assert FreeCells([x], min) == SpanCells(x, min) + FreeCells([], min);
  }

  // ---------------------------------------------------------------------------
  // Allocation: tightest fit over the free spans

  /** The scan's running choice: a span index and the stripes it would leave over. */
  datatype BestSpan = BestSpan(index: nat, extraStripes: nat)

  ghost predicate Fits(spans: seq<Span>, need: nat, i: int) {
    0 <= i < |spans| && spans[i].stripes >= need
  }

  /**
   * Span `i` fits, no fitting span has fewer stripes, and every earlier
   * fitting span has strictly more: the tightest fit, earliest on a tie.
   */
  ghost predicate Tightest(spans: seq<Span>, need: nat, i: nat) {
    && Fits(spans, need, i)
    && (forall j :: 0 <= j < |spans| && spans[j].stripes >= need ==> spans[i].stripes <= spans[j].stripes)
    && (forall j :: 0 <= j < i && spans[j].stripes >= need ==> spans[i].stripes < spans[j].stripes)
  }

  /** What the scan knows after looking at spans `[0, index)`. */
  ghost predicate BestSoFar(spans: seq<Span>, need: nat, index: nat, best: Option<BestSpan>) {
    index <= |spans| &&
    match best
    case None => forall j :: 0 <= j < index ==> spans[j].stripes < need
    case Some(b) =>
      && b.index < index
      && Fits(spans, need, b.index)
      && b.extraStripes == spans[b.index].stripes - need
      && b.extraStripes > 0
      && (forall j :: 0 <= j < index && spans[j].stripes >= need ==> spans[b.index].stripes <= spans[j].stripes)
      && (forall j :: 0 <= j < b.index && spans[j].stripes >= need ==> spans[b.index].stripes < spans[j].stripes)
  }

  /**
   * The scan of the free list from `index` on: a span replaces the current
   * best only when it leaves strictly fewer stripes over, and an exact fit
   * ends the scan.
   */
  function FindTightest(spans: seq<Span>, need: nat, index: nat, best: Option<BestSpan>): (r: Option<BestSpan>)
    requires BestSoFar(spans, need, index, best)
    ensures r.None? <==> forall j :: 0 <= j < |spans| ==> spans[j].stripes < need
    ensures r.Some? ==> Tightest(spans, need, r.value.index) && r.value.extraStripes == spans[r.value.index].stripes - need
    decreases |spans| - index
  {
    if index == |spans| then best
    else if spans[index].stripes >= need then
      var extra := spans[index].stripes - need;
      if best.None? || extra < best.value.extraStripes then
        if extra == 0 then Some(BestSpan(index, 0))
        else FindTightest(spans, need, index + 1, Some(BestSpan(index, extra)))
      else FindTightest(spans, need, index + 1, best)
    else FindTightest(spans, need, index + 1, best)
  }

  /** The index of the span `Allocate` carves from, if any span is large enough. */
  function Choose(spans: seq<Span>, need: nat): (r: Option<nat>)
    ensures r.None? <==> forall j :: 0 <= j < |spans| ==> spans[j].stripes < need
    ensures r.Some? ==> Tightest(spans, need, r.value)
  {
    match FindTightest(spans, need, 0, None)
    case None => None
    case Some(b) => Some(b.index)
  }

  /** `spans` without position `i`. */
  function RemoveAt(spans: seq<Span>, i: nat): (r: seq<Span>)
    requires i < |spans|
    ensures |r| == |spans| - 1
  {
    spans[..i] + spans[i+1..]
  }

  /**
   * Takes `need` stripes off the front of span `i`, dropping the span when
   * nothing is left of it.
   */
  function Carve(spans: seq<Span>, i: nat, need: nat, min: nat): (r: seq<Span>)
    requires i < |spans| && need <= spans[i].stripes
  {
    var span := spans[i];
    var carved := Span(span.offset + need * min, span.stripes - need);
    if carved.stripes == 0 then RemoveAt(spans, i) else spans[i := carved]
  }

  /** The two shapes a carve leaves: the span dropped when used up, else shortened from the front. */
  lemma CarveShape(spans: seq<Span>, i: nat, need: nat, min: nat)
    requires i < |spans| && need <= spans[i].stripes
    ensures need == spans[i].stripes ==> Carve(spans, i, need, min) == spans[..i] + spans[i+1..]
    ensures need < spans[i].stripes ==>
      Carve(spans, i, need, min) == spans[i := Span(spans[i].offset + need * min, spans[i].stripes - need)]
  {
  }

  /** Carving takes exactly `need` stripes out of the list. */
  lemma CarveTakes(spans: seq<Span>, i: nat, need: nat, min: nat)
    requires i < |spans| && need <= spans[i].stripes
    ensures FreeStripes(Carve(spans, i, need, min)) + need == FreeStripes(spans)
  {
    var carved := Span(spans[i].offset + need * min, spans[i].stripes - need);
    CellsAround(spans, i, min);
    if carved.stripes == 0 {
      CellsConcat(spans[..i], spans[i+1..], min);
    } else {
      CellsReplace(spans, i, carved, min);
    }
  }

  /**
   * Rounds the request up to whole stripes and carves them from the front of
   * the tightest-fitting span, dropping that span when it is used up.
   */
  function Allocate(s: Slab, length: nat): (r: Option<(Slab, Block)>)
    requires s.minimumAllocationSize >= 1
    ensures var need := StripesNeeded(length, s.minimumAllocationSize);
      r.None? <==> forall j :: 0 <= j < |s.freeSpans| ==> s.freeSpans[j].stripes < need
    ensures r.Some? ==>
      var need := StripesNeeded(length, s.minimumAllocationSize);
      var (s', b) := r.value;
      var i := Choose(s.freeSpans, need).value;
      var chosen := s.freeSpans[i];
      && Choose(s.freeSpans, need).Some?
      && s'.length == s.length && s'.minimumAllocationSize == s.minimumAllocationSize
      && b.offset == chosen.offset
      && b.size == need * s.minimumAllocationSize
      && length <= b.size < length + s.minimumAllocationSize
      && FreeStripes(s'.freeSpans) + need == FreeStripes(s.freeSpans)
      && (chosen.stripes == need ==> s'.freeSpans == RemoveAt(s.freeSpans, i))
      && (chosen.stripes > need ==>
            && |s'.freeSpans| == |s.freeSpans|
            && s'.freeSpans[i] == Span(chosen.offset + b.size, chosen.stripes - need)
            && forall j :: 0 <= j < |s.freeSpans| && j != i ==> s'.freeSpans[j] == s.freeSpans[j])
  {
    var min := s.minimumAllocationSize;
    var need := StripesNeeded(length, min);
    match Choose(s.freeSpans, need)
    case None => None
    case Some(i) =>
      var span := s.freeSpans[i];
      var allocatedLength := need * min;
      var spans' := Carve(s.freeSpans, i, need, min);
      CarveTakes(s.freeSpans, i, need, min);
      Some((s.(freeSpans := spans'), Block(span.offset, allocatedLength)))
  }

  // ---------------------------------------------------------------------------
  // Free: address-ordered reinsertion with coalescing

  lemma Regroup(a: set<int>, x: set<int>, y: set<int>, b: set<int>)
    ensures a + x + (y + b) == a + (x + y) + b
  {
  }

  /** Two touching spans replaced by their union record the same bytes. */
  lemma MergePairCells(spans: seq<Span>, index: nat, min: nat)
    requires index + 1 < |spans| && End(spans[index], min) == spans[index + 1].offset
    ensures FreeCells(spans[..index] + [Span(spans[index].offset, spans[index].stripes + spans[index + 1].stripes)] + spans[index + 2..], min)
      == FreeCells(spans, min)
  {
    var merged := Span(spans[index].offset, spans[index].stripes + spans[index + 1].stripes);
    var A, X, Y, B := FreeCells(spans[..index], min), SpanCells(spans[index], min), SpanCells(spans[index + 1], min), FreeCells(spans[index + 2..], min);
    assert FreeCells(spans, min) == A + X + (Y + B) by {
      assert spans[index + 1..] == [spans[index + 1]] + spans[index + 2..];
      CellsAround(spans, index, min);
      CellsConcat([spans[index + 1]], spans[index + 2..], min);
      CellsSingle(spans[index + 1], min);
    }
    assert FreeCells(spans[..index] + [merged] + spans[index + 2..], min) == A + (X + Y) + B by {
      JoinCells(spans[index], spans[index + 1], min);
      CellsConcat(spans[..index] + [merged], spans[index + 2..], min);
      CellsConcat(spans[..index], [merged], min);
      CellsSingle(merged, min);
    }
    Regroup(A, X, Y, B);
  }

  /** Two spans replaced by one holding both their stripes keep the stripe count. */
  lemma MergePairStripes(spans: seq<Span>, index: nat)
    requires index + 1 < |spans|
    ensures FreeStripes(spans[..index] + [Span(spans[index].offset, spans[index].stripes + spans[index + 1].stripes)] + spans[index + 2..])
      == FreeStripes(spans)
  {
    var merged := Span(spans[index].offset, spans[index].stripes + spans[index + 1].stripes);
    assert spans[index + 1..] == [spans[index + 1]] + spans[index + 2..];
    CellsAround(spans, index, 1);
    CellsConcat([spans[index + 1]], spans[index + 2..], 1);
    CellsConcat(spans[..index] + [merged], spans[index + 2..], 1);
    CellsConcat(spans[..index], [merged], 1);
  }

  /**
   * After span `index` has grown to end at `newEnd`, absorbs the following
   * span when it starts exactly there.
   */
  function MergeNext(spans: seq<Span>, index: nat, newEnd: nat, min: nat): (r: seq<Span>)
    requires index < |spans|
    requires End(spans[index], min) == newEnd
    ensures FreeStripes(r) == FreeStripes(spans)
    ensures FreeCells(r, min) == FreeCells(spans, min)
  {
    if index + 1 < |spans| && spans[index + 1].offset == newEnd then
      MergePairCells(spans, index, min);
      MergePairStripes(spans, index);
      spans[..index] + [Span(spans[index].offset, spans[index].stripes + spans[index + 1].stripes)] + spans[index + 2..]
    else
      spans
  }

  /**
   * The free loop from position `index`: merge into a preceding span that ends
   * where the freed span starts, else extend or insert before the first span
   * that starts after it, else append.
   */
  function Coalesce(spans: seq<Span>, freed: Span, min: nat, index: nat): (r: seq<Span>)
    requires index <= |spans|
    ensures FreeStripes(r) == FreeStripes(spans) + freed.stripes
    ensures FreeCells(r, min) == FreeCells(spans, min) + SpanCells(freed, min)
    decreases |spans| - index
  {
    if index == |spans| then
      CellsConcat(spans, [freed], min);
      CellsSingle(freed, min);
      spans + [freed]
    else
      var span := spans[index];
      if span.offset < freed.offset && End(span, min) == freed.offset then
        var merged := Span(span.offset, span.stripes + freed.stripes);
        JoinCells(span, freed, min);
        CellsAround(spans, index, min);
        CellsReplace(spans, index, merged, min);
        MergeNext(spans[index := merged], index, End(merged, min), min)
      else if freed.offset < span.offset then
        if span.offset == End(freed, min) then
          var merged := Span(freed.offset, span.stripes + freed.stripes);
          JoinCells(freed, span, min);
          assert SpanCells(merged, min) == SpanCells(Span(freed.offset, freed.stripes + span.stripes), min);
          CellsAround(spans, index, min);
          CellsReplace(spans, index, merged, min);
          MergeNext(spans[index := merged], index, End(merged, min), min)
        else
          assert spans == spans[..index] + spans[index..];
          CellsConcat(spans[..index], spans[index..], min);
          CellsConcat(spans[..index], [freed] + spans[index..], min);
          CellsConcat([freed], spans[index..], min);
          CellsSingle(freed, min);
          assert spans[..index] + [freed] + spans[index..] == spans[..index] + ([freed] + spans[index..]);
          spans[..index] + [freed] + spans[index..]
      else
        Coalesce(spans, freed, min, index + 1)
  }

  /**
   * Returns `length` bytes at `offset` to the slab: the freed span covers
   * `length / min` whole stripes. No check is made that the bytes were in use.
   */
  function Free(s: Slab, offset: nat, length: nat): (r: Slab)
    requires s.minimumAllocationSize >= 1
    ensures r.length == s.length && r.minimumAllocationSize == s.minimumAllocationSize
    ensures FreeStripes(r.freeSpans) == FreeStripes(s.freeSpans) + length / s.minimumAllocationSize
    ensures FreeCells(r.freeSpans, s.minimumAllocationSize)
         == FreeCells(s.freeSpans, s.minimumAllocationSize) + SpanCells(Span(offset, length / s.minimumAllocationSize), s.minimumAllocationSize)
  {
    var freed := Span(offset, length / s.minimumAllocationSize);
    s.(freeSpans := Coalesce(s.freeSpans, freed, s.minimumAllocationSize, 0))
  }
}

=== FILE: slab_scenario.dfy ===
/**
 * The slab's own scenario: a 64-byte slab with 16-byte stripes, filled,
 * partly freed out of order, coalesced and filled again.
 */
module SlabScenario {
  import opened Wrappers
  import opened Slab

  /** The scenario's slab with the given free list. */
  function At(spans: seq<Span>): Slab {
    Slab(64, 16, spans)
  }

  /**
   * Four small requests each take one stripe and a fifth fails; after the
   * out-of-order frees the three middle stripes coalesce into one span that
   * serves a 48-byte request; after freeing everything the whole 64 bytes
   * come back as one span, can be allocated at once and freed again.
   */
  lemma BasicTests()
    ensures New(64, 16) == At([Span(0, 4)])
    ensures Allocate(At([Span(0, 4)]), 1) == Some((At([Span(16, 3)]), Block(0, 16)))
    ensures Allocate(At([Span(16, 3)]), 2) == Some((At([Span(32, 2)]), Block(16, 16)))
    ensures Allocate(At([Span(32, 2)]), 8) == Some((At([Span(48, 1)]), Block(32, 16)))
    ensures Allocate(At([Span(48, 1)]), 16) == Some((At([]), Block(48, 16)))
    ensures Allocate(At([]), 16) == None
    ensures Free(At([]), 0, 16) == At([Span(0, 1)])
    ensures Allocate(At([Span(0, 1)]), 16) == Some((At([]), Block(0, 16)))
    ensures Free(At([]), 16, 16) == At([Span(16, 1)])
    ensures Free(At([Span(16, 1)]), 48, 16) == At([Span(16, 1), Span(48, 1)])
    ensures Free(At([Span(16, 1), Span(48, 1)]), 32, 16) == At([Span(16, 3)])
    ensures Allocate(At([Span(16, 3)]), 48) == Some((At([]), Block(16, 48)))
    ensures Free(At([]), 16, 48) == At([Span(16, 3)])
    ensures Free(At([Span(16, 3)]), 0, 16) == At([Span(0, 4)])
    ensures Allocate(At([Span(0, 4)]), 64) == Some((At([]), Block(0, 64)))
    ensures Free(At([]), 0, 64) == At([Span(0, 4)])
  {
    Fill();
    Exhaust();
    Refill();
    CoalesceMiddle();
    WholeSlab();
  }

  /** The first three small requests each take the front stripe. */
  lemma Fill()
    ensures New(64, 16) == At([Span(0, 4)])
    ensures Allocate(At([Span(0, 4)]), 1) == Some((At([Span(16, 3)]), Block(0, 16)))
    ensures Allocate(At([Span(16, 3)]), 2) == Some((At([Span(32, 2)]), Block(16, 16)))
    ensures Allocate(At([Span(32, 2)]), 8) == Some((At([Span(48, 1)]), Block(32, 16)))
  {
    LeavesRest(0, 4, 1);
    LeavesRest(16, 3, 2);
    LeavesRest(32, 2, 8);
  }

  /** The fourth request takes the last stripe, a fifth finds nothing, and one stripe comes back. */
  lemma Exhaust()
    ensures Allocate(At([Span(48, 1)]), 16) == Some((At([]), Block(48, 16)))
    ensures Allocate(At([]), 16) == None
    ensures Free(At([]), 0, 16) == At([Span(0, 1)])
  {
    TakesAll(48, 1, 16);
  }

  /** The returned stripe is taken again, then two stripes come back apart. */
  lemma Refill()
    ensures Allocate(At([Span(0, 1)]), 16) == Some((At([]), Block(0, 16)))
    ensures Free(At([]), 16, 16) == At([Span(16, 1)])
    ensures Free(At([Span(16, 1)]), 48, 16) == At([Span(16, 1), Span(48, 1)])
  {
    TakesAll(0, 1, 16);
  }

  /** Freeing the stripe between them joins three stripes, which serve 48 bytes and come back. */
  lemma CoalesceMiddle()
    ensures Free(At([Span(16, 1), Span(48, 1)]), 32, 16) == At([Span(16, 3)])
    ensures Allocate(At([Span(16, 3)]), 48) == Some((At([]), Block(16, 48)))
    ensures Free(At([]), 16, 48) == At([Span(16, 3)])
  {
    TakesAll(16, 3, 48);
  }

  /** The first stripe joins the rest, and the whole slab is allocated at once and returned. */
  lemma WholeSlab()
    ensures Free(At([Span(16, 3)]), 0, 16) == At([Span(0, 4)])
    ensures Allocate(At([Span(0, 4)]), 64) == Some((At([]), Block(0, 64)))
    ensures Free(At([]), 0, 64) == At([Span(0, 4)])
  {
    TakesAll(0, 4, 64);
  }

  /** A request for exactly the stripes of the only span takes all of it. */
  lemma TakesAll(offset: nat, stripes: nat, length: nat)
    requires stripes >= 1 && length == stripes * 16
    ensures Allocate(At([Span(offset, stripes)]), length) == Some((At([]), Block(offset, length)))
  {
    var spans := [Span(offset, stripes)];
    assert StripesNeeded(length, 16) == stripes;
    assert FindTightest(spans, stripes, 0, None) == Some(BestSpan(0, 0));
    assert Choose(spans, stripes) == Some(0);
    assert RemoveAt(spans, 0) == [];
  }

  /** A one-stripe request against a single span of `stripes > 1` takes its first stripe. */
  lemma LeavesRest(offset: nat, stripes: nat, length: nat)
    requires stripes > 1 && 1 <= length <= 16
    ensures Allocate(At([Span(offset, stripes)]), length) == Some((At([Span(offset + 16, stripes - 1)]), Block(offset, 16)))
  {
    var spans := [Span(offset, stripes)];
    assert StripesNeeded(length, 16) == 1;
    assert FindTightest(spans, 1, 1, Some(BestSpan(0, stripes - 1))) == Some(BestSpan(0, stripes - 1));
    assert Choose(spans, 1) == Some(0);
    assert spans[0 := Span(offset + 16, stripes - 1)] == [Span(offset + 16, stripes - 1)];
  }
}

=== FILE: slab_tiling.dfy ===
/**
 * The invariant a slab's free list keeps: spans are non-empty, lie inside the
 * slab, are strictly ordered by address and never touch; together with the
 * live allocations they tile the slab's whole stripes exactly.
 */
module SlabTiling {
  import opened Wrappers
  import opened Slab

  /** Every span ends strictly before the next one starts: sorted, disjoint, never adjacent. */
  ghost predicate Separated(spans: seq<Span>, min: nat) {
    forall i, j :: 0 <= i < j < |spans| ==> End(spans[i], min) < spans[j].offset
  }

  ghost predicate InBounds(spans: seq<Span>, min: nat, capacity: nat) {
    forall i :: 0 <= i < |spans| ==> spans[i].stripes >= 1 && End(spans[i], min) <= capacity
  }

  ghost predicate WellFormed(s: Slab) {
    && s.minimumAllocationSize >= 1
    && InBounds(s.freeSpans, s.minimumAllocationSize, Capacity(s))
    && Separated(s.freeSpans, s.minimumAllocationSize)
  }

  // ---------------------------------------------------------------------------
  // Helpers about span lists

  lemma SpanEnds(span: Span, min: nat)
    requires span.stripes >= 1 && min >= 1
    ensures span.offset < End(span, min)
  {
    MulAtLeast(1, span.stripes, min);
  }

  lemma SeparatedSlice(spans: seq<Span>, lo: nat, hi: nat, min: nat)
    requires lo <= hi <= |spans|
    requires Separated(spans, min)
    ensures Separated(spans[lo..hi], min)
  {
    forall i, j | 0 <= i < j < hi - lo
      ensures End(spans[lo..hi][i], min) < spans[lo..hi][j].offset
    {
      assert spans[lo..hi][i] == spans[lo + i] && spans[lo..hi][j] == spans[lo + j];
    }
  }

  lemma InBoundsSlice(spans: seq<Span>, lo: nat, hi: nat, min: nat, capacity: nat)
    requires lo <= hi <= |spans|
    requires InBounds(spans, min, capacity)
    ensures InBounds(spans[lo..hi], min, capacity)
  {
    forall i | 0 <= i < hi - lo
      ensures spans[lo..hi][i].stripes >= 1 && End(spans[lo..hi][i], min) <= capacity
    {
      assert spans[lo..hi][i] == spans[lo + i];
    }
  }

  /** Putting a span between two well-formed lists keeps the order when it fits the gap. */
  lemma Splice(pre: seq<Span>, x: Span, post: seq<Span>, min: nat, capacity: nat)
    requires Separated(pre, min) && Separated(post, min)
    requires InBounds(pre, min, capacity) && InBounds(post, min, capacity)
    requires x.stripes >= 1 && End(x, min) <= capacity
    requires |pre| > 0 ==> End(pre[|pre| - 1], min) < x.offset
    requires |post| > 0 ==> End(x, min) < post[0].offset
    ensures Separated(pre + [x] + post, min)
    ensures InBounds(pre + [x] + post, min, capacity)
  {
    var r := pre + [x] + post;
    forall i | 0 <= i < |pre|
      ensures End(pre[i], min) < x.offset
    {
      if i < |pre| - 1 {
        assert End(pre[i], min) < pre[|pre| - 1].offset;
      }
    }
    forall j | 0 <= j < |post|
      ensures End(x, min) < post[j].offset
    {
      if j > 0 {
        assert End(post[0], min) < post[j].offset;
      }
    }
    forall i, j | 0 <= i < j < |r|
      ensures End(r[i], min) < r[j].offset
    {
      if j < |pre| {
      } else if j == |pre| {
      } else if i < |pre| {
        assert r[j] == post[j - |pre| - 1];
        assert End(pre[i], min) < x.offset;
        assert End(x, min) < post[j - |pre| - 1].offset;
      } else if i == |pre| {
        assert r[j] == post[j - |pre| - 1];
      } else {
        assert r[i] == post[i - |pre| - 1] && r[j] == post[j - |pre| - 1];
      }
    }
  }

  /** Joining two well-formed lists keeps the order when the first ends before the second starts. */
  lemma Join(pre: seq<Span>, post: seq<Span>, min: nat, capacity: nat)
    requires Separated(pre, min) && Separated(post, min)
    requires InBounds(pre, min, capacity) && InBounds(post, min, capacity)
    requires |pre| > 0 && |post| > 0 ==> End(pre[|pre| - 1], min) < post[0].offset
    ensures Separated(pre + post, min)
    ensures InBounds(pre + post, min, capacity)
  {
    forall i, j | 0 <= i < j < |pre + post|
      ensures End((pre + post)[i], min) < (pre + post)[j].offset
    {
      JoinPair(pre, post, min, i, j);
    }
    forall i | 0 <= i < |pre + post|
      ensures (pre + post)[i].stripes >= 1 && End((pre + post)[i], min) <= capacity
    {
      if i < |pre| {
        assert (pre + post)[i] == pre[i];
      } else {
        assert (pre + post)[i] == post[i - |pre|];
      }
    }
  }

  /** Any two spans of the joined list are in order. */
  lemma JoinPair(pre: seq<Span>, post: seq<Span>, min: nat, i: nat, j: nat)
    requires Separated(pre, min) && Separated(post, min)
    requires |pre| > 0 && |post| > 0 ==> End(pre[|pre| - 1], min) < post[0].offset
    requires i < j < |pre + post|
    ensures End((pre + post)[i], min) < (pre + post)[j].offset
  {
    if j < |pre| {
      assert (pre + post)[i] == pre[i] && (pre + post)[j] == pre[j];
    } else if i < |pre| {
      assert (pre + post)[i] == pre[i] && (pre + post)[j] == post[j - |pre|];
      JoinAcross(pre, post, min, i, j - |pre|);
    } else {
      assert (pre + post)[i] == post[i - |pre|] && (pre + post)[j] == post[j - |pre|];
    }
  }

  /** A span of the first list ends before any span of the second starts. */
  lemma JoinAcross(pre: seq<Span>, post: seq<Span>, min: nat, i: nat, k: nat)
    requires Separated(pre, min) && Separated(post, min)
    requires i < |pre| && k < |post|
    requires End(pre[|pre| - 1], min) < post[0].offset
    ensures End(pre[i], min) < post[k].offset
  {
    assert End(pre[i], min) <= End(pre[|pre| - 1], min) by {
      if i < |pre| - 1 {
        assert End(pre[i], min) < pre[|pre| - 1].offset;
      }
    }
    assert post[0].offset <= post[k].offset by {
      if k > 0 {
        assert End(post[0], min) < post[k].offset;
      }
    }
  }

  /** Ranges that do not overlap share no byte. */
  lemma RangesApart(a: int, b: int, c: int, d: int)
    requires b <= c
    ensures Range(a, b) !! Range(c, d)
  {
  }

  /** Taking a part that overlaps nothing else out of a union leaves the rest. */
  lemma RemoveBetween(pre: set<int>, part: set<int>, post: set<int>)
    requires part !! pre && part !! post
    ensures (pre + part + post) - part == pre + post
  {
  }

  /** Taking a part that overlaps nothing else out of a union leaves the rest. */
  lemma RemoveMiddle(pre: set<int>, part: set<int>, rest: set<int>, post: set<int>)
    requires part !! pre && part !! rest && part !! post
    ensures (pre + (part + rest) + post) - part == pre + rest + post
  {
  }

  /** A list whose spans all lie within `[lo, hi)` records only bytes of that range. */
  lemma {:induction false} CellsWithin(spans: seq<Span>, min: nat, lo: int, hi: int)
    requires forall j :: 0 <= j < |spans| ==> lo <= spans[j].offset && End(spans[j], min) <= hi
    ensures FreeCells(spans, min) <= Range(lo, hi)
    decreases |spans|
  {
    if |spans| > 0 {
      CellsWithin(spans[1..], min, lo, hi);
    }
  }

  lemma SpanInCells(spans: seq<Span>, j: nat, min: nat)
    requires j < |spans|
    ensures SpanCells(spans[j], min) <= FreeCells(spans, min)
  {
    CellsAround(spans, j, min);
  }

  /** Two non-empty spans with no byte in common lie one wholly before the other. */
  lemma Dichotomy(a: Span, b: Span, min: nat)
    requires a.stripes >= 1 && b.stripes >= 1 && min >= 1
    requires SpanCells(a, min) !! SpanCells(b, min)
    ensures End(a, min) <= b.offset || End(b, min) <= a.offset
  {
    if End(a, min) > b.offset && End(b, min) > a.offset {
      Overlap(a, b, min);
      assert false;
    }
  }

  /** Two spans that each start before the other ends share the later start. */
  lemma Overlap(a: Span, b: Span, min: nat)
    requires a.stripes >= 1 && b.stripes >= 1 && min >= 1
    requires End(a, min) > b.offset && End(b, min) > a.offset
    ensures var x := if a.offset < b.offset then b.offset else a.offset;
      x in SpanCells(a, min) && x in SpanCells(b, min)
  {
    SpanEnds(a, min);
    SpanEnds(b, min);
  }

  /**
   * A non-empty freed span disjoint from a well-formed list splits it into the
   * spans wholly before it and the spans wholly after it.
   */
  lemma SplitPoint(spans: seq<Span>, freed: Span, min: nat, capacity: nat) returns (p: nat)
    requires min >= 1 && freed.stripes >= 1
    requires Separated(spans, min) && InBounds(spans, min, capacity)
    requires SpanCells(freed, min) !! FreeCells(spans, min)
    ensures p <= |spans|
    ensures forall j :: 0 <= j < p ==> End(spans[j], min) <= freed.offset
    ensures forall j :: p <= j < |spans| ==> End(freed, min) <= spans[j].offset
  {
    forall j | 0 <= j < |spans|
      ensures End(spans[j], min) <= freed.offset || End(freed, min) <= spans[j].offset
    {
      SpanInCells(spans, j, min);
      Dichotomy(spans[j], freed, min);
    }
    p := 0;
    while p < |spans| && End(spans[p], min) <= freed.offset
      invariant p <= |spans|
      invariant forall j :: 0 <= j < p ==> End(spans[j], min) <= freed.offset
    {
      p := p + 1;
    }
    forall j | p <= j < |spans|
      ensures End(freed, min) <= spans[j].offset
    {
      if j > p {
        assert End(spans[p], min) < spans[j].offset;
      }
    }
  }

  /** The free loop passes over every span that ends strictly before the freed one. */
  lemma {:induction false} CoalesceSkips(spans: seq<Span>, freed: Span, min: nat, i: nat, q: nat)
    requires i <= q <= |spans|
    requires forall j :: i <= j < q ==> End(spans[j], min) < freed.offset
    ensures Coalesce(spans, freed, min, i) == Coalesce(spans, freed, min, q)
    decreases q - i
  {
    if i < q {
      CoalesceStep(spans, freed, min, i);
      CoalesceSkips(spans, freed, min, i + 1, q);
    }
  }

  /** One round of the free loop over a span that ends before the freed one moves on. */
  lemma CoalesceStep(spans: seq<Span>, freed: Span, min: nat, i: nat)
    requires i < |spans| && End(spans[i], min) < freed.offset
    ensures Coalesce(spans, freed, min, i) == Coalesce(spans, freed, min, i + 1)
  {
    assert spans[i].offset <= End(spans[i], min);
  }

  // ---------------------------------------------------------------------------
  // Well-formedness is preserved

  lemma NewWellFormed(length: nat, min: nat)
    requires min >= 1 && length >= min
    ensures WellFormed(New(length, min))
  {
    var s := New(length, min);
    assert TotalStripes(s) >= 1 by {
      assert length / min >= 1;
    }
  }

  /** A successful allocation carves the chosen span and hands out its front. */
  lemma AllocateShape(s: Slab, length: nat, s': Slab, b: Block)
    requires s.minimumAllocationSize >= 1
    requires Allocate(s, length) == Some((s', b))
    ensures var need := StripesNeeded(length, s.minimumAllocationSize);
      && Choose(s.freeSpans, need).Some?
      && var i := Choose(s.freeSpans, need).value;
      && s'.minimumAllocationSize == s.minimumAllocationSize && s'.length == s.length
      && b == Block(s.freeSpans[i].offset, need * s.minimumAllocationSize)
      && s'.freeSpans == Carve(s.freeSpans, i, need, s.minimumAllocationSize)
  {
  }

  /** Carving keeps a well-formed list well formed. */
  lemma CarveKeepsOrder(spans: seq<Span>, i: nat, need: nat, min: nat, cap: nat)
    requires min >= 1 && i < |spans| && need <= spans[i].stripes
    requires Separated(spans, min) && InBounds(spans, min, cap)
    ensures Separated(Carve(spans, i, need, min), min) && InBounds(Carve(spans, i, need, min), min, cap)
  {
    if spans[i].stripes == need {
      DropKeepsOrder(spans, i, min, cap);
    } else {
      ShrinkKeepsOrder(spans, i, need, min, cap);
    }
  }

  /** Dropping a used-up span leaves its neighbours apart. */
  lemma DropKeepsOrder(spans: seq<Span>, i: nat, min: nat, cap: nat)
    requires min >= 1 && i < |spans|
    requires Separated(spans, min) && InBounds(spans, min, cap)
    ensures Separated(RemoveAt(spans, i), min) && InBounds(RemoveAt(spans, i), min, cap)
  {
    SeparatedSlice(spans, 0, i, min);
    SeparatedSlice(spans, i + 1, |spans|, min);
    InBoundsSlice(spans, 0, i, min, cap);
    InBoundsSlice(spans, i + 1, |spans|, min, cap);
    assert spans[i+1..|spans|] == spans[i+1..];
    if i > 0 && i + 1 < |spans| {
      assert End(spans[i - 1], min) < spans[i].offset;
      assert End(spans[i], min) < spans[i + 1].offset;
      SpanEnds(spans[i], min);
    }
    Join(spans[..i], spans[i+1..], min, cap);
  }

  /** Taking stripes off the front of a span keeps it where it was, ending at the same place. */
  lemma ShrinkKeepsOrder(spans: seq<Span>, i: nat, need: nat, min: nat, cap: nat)
    requires min >= 1 && i < |spans| && need < spans[i].stripes
    requires Separated(spans, min) && InBounds(spans, min, cap)
    ensures var carved := Span(spans[i].offset + need * min, spans[i].stripes - need);
      Separated(spans[i := carved], min) && InBounds(spans[i := carved], min, cap)
  {
    var span := spans[i];
    var carved := Span(span.offset + need * min, span.stripes - need);
    assert End(carved, min) == End(span, min) by {
      assert (span.stripes - need) * min + need * min == span.stripes * min;
    }
    SeparatedSlice(spans, 0, i, min);
    SeparatedSlice(spans, i + 1, |spans|, min);
    InBoundsSlice(spans, 0, i, min, cap);
    InBoundsSlice(spans, i + 1, |spans|, min, cap);
    assert spans[i+1..|spans|] == spans[i+1..];
    if i > 0 {
      assert End(spans[i - 1], min) < span.offset;
    }
    if i + 1 < |spans| {
      assert End(span, min) < spans[i + 1].offset;
    }
    SpanEnds(carved, min);
    Splice(spans[..i], carved, spans[i+1..], min, cap);
    assert spans[i := carved] == spans[..i] + [carved] + spans[i+1..];
  }

  /**
   * The front `need` stripes of span `i` and the rest of that span split its
   * bytes, and the front overlaps neither the rest nor any other span.
   */
  lemma CarveParts(spans: seq<Span>, i: nat, need: nat, min: nat, cap: nat)
    requires min >= 1 && i < |spans| && need <= spans[i].stripes
    requires Separated(spans, min) && InBounds(spans, min, cap)
    ensures var block := Range(spans[i].offset, spans[i].offset + need * min);
      var rest := SpanCells(Span(spans[i].offset + need * min, spans[i].stripes - need), min);
      && SpanCells(spans[i], min) == block + rest
      && block !! rest
      && block !! FreeCells(spans[..i], min)
      && block !! FreeCells(spans[i+1..], min)
  {
    var carved := Span(spans[i].offset + need * min, spans[i].stripes - need);
    var cut := spans[i].offset + need * min;
    var pre, post := spans[..i], spans[i+1..];
    MulAtLeast(need, spans[i].stripes, min);
    assert End(carved, min) == End(spans[i], min) by {
      assert (spans[i].stripes - need) * min + need * min == spans[i].stripes * min;
    }
    RangeJoin(spans[i].offset, cut, End(spans[i], min));
    RangesApart(spans[i].offset, cut, cut, End(spans[i], min));
    assert Range(spans[i].offset, cut) !! FreeCells(pre, min) by {
      forall j | 0 <= j < |pre|
        ensures 0 <= pre[j].offset && End(pre[j], min) <= spans[i].offset
      {
        assert pre[j] == spans[j];
      }
      CellsWithin(pre, min, 0, spans[i].offset);
      RangesApart(0, spans[i].offset, spans[i].offset, cut);
    }
    assert Range(spans[i].offset, cut) !! FreeCells(post, min) by {
      forall j | 0 <= j < |post|
        ensures End(spans[i], min) <= post[j].offset && End(post[j], min) <= cap
      {
        assert post[j] == spans[i + 1 + j];
      }
      CellsWithin(post, min, End(spans[i], min), cap);
      RangesApart(spans[i].offset, cut, End(spans[i], min), cap);
    }
  }

  /** Carving takes exactly the handed-out bytes off the free bytes, and they were all free. */
  lemma CarveCells(spans: seq<Span>, i: nat, need: nat, min: nat, cap: nat)
    requires min >= 1 && i < |spans| && need <= spans[i].stripes
    requires Separated(spans, min) && InBounds(spans, min, cap)
    ensures var block := Range(spans[i].offset, spans[i].offset + need * min);
      && block <= FreeCells(spans, min)
      && FreeCells(Carve(spans, i, need, min), min) == FreeCells(spans, min) - block
  {
    var block := Range(spans[i].offset, spans[i].offset + need * min);
    var carved := Span(spans[i].offset + need * min, spans[i].stripes - need);
    var P, C, Q := FreeCells(spans[..i], min), SpanCells(carved, min), FreeCells(spans[i+1..], min);
    CarveParts(spans, i, need, min, cap);
    CellsAround(spans, i, min);
    CarveShape(spans, i, need, min);
    assert FreeCells(spans, min) == P + (block + C) + Q;
    if spans[i].stripes == need {
      assert C == {};
      CellsConcat(spans[..i], spans[i+1..], min);
      RemoveBetween(P, block, Q);
      assert FreeCells(spans, min) == P + block + Q;
    } else {
      CellsReplace(spans, i, carved, min);
      RemoveMiddle(P, block, C, Q);
    }
  }

  /**
   * Allocation keeps the free list well formed and hands out a block that was
   * entirely free and is no longer: the free bytes lose exactly the block.
   */
  lemma AllocateCarves(s: Slab, length: nat, s': Slab, b: Block)
    requires WellFormed(s)
    requires Allocate(s, length) == Some((s', b))
    ensures WellFormed(s')
    ensures BlockCells(b) <= FreeCells(s.freeSpans, s.minimumAllocationSize)
    ensures FreeCells(s'.freeSpans, s.minimumAllocationSize) == FreeCells(s.freeSpans, s.minimumAllocationSize) - BlockCells(b)
  {
    var min := s.minimumAllocationSize;
    var need := StripesNeeded(length, min);
    AllocateShape(s, length, s', b);
    var i := Choose(s.freeSpans, need).value;
    CarveKeepsOrder(s.freeSpans, i, need, min, Capacity(s));
    CarveCells(s.freeSpans, i, need, min, Capacity(s));
  }

  /**
   * The position of a freed span among the free spans: every span before `p`
   * ends at or before it, every span from `p` on starts at or after its end.
   */
  ghost predicate SplitAt(spans: seq<Span>, freed: Span, min: nat, cap: nat, p: nat) {
    && min >= 1 && freed.stripes >= 1 && End(freed, min) <= cap
    && Separated(spans, min) && InBounds(spans, min, cap)
    && p <= |spans|
    && (forall j :: 0 <= j < p ==> End(spans[j], min) <= freed.offset)
    && (forall j :: p <= j < |spans| ==> End(freed, min) <= spans[j].offset)
  }

  /** Freeing right behind span `q` grows that span, then merges onward. */
  lemma CoalesceIntoPrevious(spans: seq<Span>, freed: Span, min: nat, q: nat)
    requires min >= 1 && q < |spans| && spans[q].stripes >= 1
    requires End(spans[q], min) == freed.offset
    ensures var m := Span(spans[q].offset, spans[q].stripes + freed.stripes);
      Coalesce(spans, freed, min, q) == MergeNext(spans[q := m], q, End(m, min), min)
  {
    SpanEnds(spans[q], min);
  }

  /** The two shapes `MergeNext` can leave: merged with the following span, or unchanged. */
  lemma MergeNextShape(spans: seq<Span>, index: nat, newEnd: nat, min: nat)
    requires index < |spans| && End(spans[index], min) == newEnd
    ensures index + 1 < |spans| && spans[index + 1].offset == newEnd ==>
      MergeNext(spans, index, newEnd, min)
        == spans[..index] + [Span(spans[index].offset, spans[index].stripes + spans[index + 1].stripes)] + spans[index + 2..]
    ensures !(index + 1 < |spans| && spans[index + 1].offset == newEnd) ==>
      MergeNext(spans, index, newEnd, min) == spans
  {
  }

  /** Freeing the gap between spans `p - 1` and `p` joins the three into one span. */
  lemma CoalesceBridgeShape(spans: seq<Span>, freed: Span, min: nat, p: nat)
    requires min >= 1 && 0 < p < |spans| && spans[p - 1].stripes >= 1
    requires End(spans[p - 1], min) == freed.offset && spans[p].offset == End(freed, min)
    ensures Coalesce(spans, freed, min, p - 1)
      == spans[..p - 1] + [Span(spans[p - 1].offset, spans[p - 1].stripes + freed.stripes + spans[p].stripes)] + spans[p + 1..]
  {
    var m := Span(spans[p - 1].offset, spans[p - 1].stripes + freed.stripes);
    JoinCells(spans[p - 1], freed, min);
    CoalesceIntoPrevious(spans, freed, min, p - 1);
    var t := spans[p - 1 := m];
    MergeNextShape(t, p - 1, End(m, min), min);
    assert t[..p - 1] == spans[..p - 1];
    assert t[p] == spans[p] && t[p + 1..] == spans[p + 1..];
  }

  /** Freeing right behind span `p - 1`, with no span right after, grows that span alone. */
  lemma CoalesceGrowShape(spans: seq<Span>, freed: Span, min: nat, p: nat)
    requires min >= 1 && 0 < p <= |spans| && spans[p - 1].stripes >= 1
    requires End(spans[p - 1], min) == freed.offset
    requires !(p < |spans| && spans[p].offset == End(freed, min))
    ensures Coalesce(spans, freed, min, p - 1)
      == spans[..p - 1] + [Span(spans[p - 1].offset, spans[p - 1].stripes + freed.stripes)] + spans[p..]
  {
    var m := Span(spans[p - 1].offset, spans[p - 1].stripes + freed.stripes);
    JoinCells(spans[p - 1], freed, min);
    CoalesceIntoPrevious(spans, freed, min, p - 1);
    var t := spans[p - 1 := m];
    MergeNextShape(t, p - 1, End(m, min), min);
    assert t == spans[..p - 1] + [m] + spans[p..];
  }

  /** The freed span touches its predecessor: the predecessor grows, and absorbs the successor if that touches too. */
  lemma MergeWithPrevious(spans: seq<Span>, freed: Span, min: nat, cap: nat, p: nat)
    requires SplitAt(spans, freed, min, cap, p)
    requires p > 0 && End(spans[p - 1], min) == freed.offset
    ensures Separated(Coalesce(spans, freed, min, p - 1), min)
    ensures InBounds(Coalesce(spans, freed, min, p - 1), min, cap)
  {
    if p < |spans| && spans[p].offset == End(freed, min) {
      CoalesceBridgeShape(spans, freed, min, p);
      MergeBridges(spans, freed, min, cap, p);
    } else {
      CoalesceGrowShape(spans, freed, min, p);
      MergeGrowsPrevious(spans, freed, min, cap, p);
    }
  }

  /** The predecessor grows over the freed span and nothing follows right after. */
  lemma MergeGrowsPrevious(spans: seq<Span>, freed: Span, min: nat, cap: nat, p: nat)
    requires SplitAt(spans, freed, min, cap, p)
    requires p > 0 && End(spans[p - 1], min) == freed.offset
    requires !(p < |spans| && spans[p].offset == End(freed, min))
    ensures Separated(spans[..p - 1] + [Span(spans[p - 1].offset, spans[p - 1].stripes + freed.stripes)] + spans[p..], min)
    ensures InBounds(spans[..p - 1] + [Span(spans[p - 1].offset, spans[p - 1].stripes + freed.stripes)] + spans[p..], min, cap)
  {
    SpanEnds(spans[p - 1], min);
    var m := Span(spans[p - 1].offset, spans[p - 1].stripes + freed.stripes);
    JoinCells(spans[p - 1], freed, min);
    SeparatedSlice(spans, 0, p - 1, min);
    InBoundsSlice(spans, 0, p - 1, min, cap);
    if p > 1 {
      assert End(spans[p - 2], min) < spans[p - 1].offset;
    }
    SeparatedSlice(spans, p, |spans|, min);
    InBoundsSlice(spans, p, |spans|, min, cap);
    assert spans[p..|spans|] == spans[p..];
    Splice(spans[..p - 1], m, spans[p..], min, cap);
  }

  /** The freed span closes the gap between two spans, which become one. */
  lemma MergeBridges(spans: seq<Span>, freed: Span, min: nat, cap: nat, p: nat)
    requires SplitAt(spans, freed, min, cap, p)
    requires p > 0 && End(spans[p - 1], min) == freed.offset
    requires p < |spans| && spans[p].offset == End(freed, min)
    ensures Separated(spans[..p - 1] + [Span(spans[p - 1].offset, spans[p - 1].stripes + freed.stripes + spans[p].stripes)] + spans[p + 1..], min)
    ensures InBounds(spans[..p - 1] + [Span(spans[p - 1].offset, spans[p - 1].stripes + freed.stripes + spans[p].stripes)] + spans[p + 1..], min, cap)
  {
    var m2 := Span(spans[p - 1].offset, spans[p - 1].stripes + freed.stripes + spans[p].stripes);
    var pre, post := spans[..p - 1], spans[p + 1..];
    assert Separated(pre, min) && InBounds(pre, min, cap) by {
      SeparatedSlice(spans, 0, p - 1, min);
      InBoundsSlice(spans, 0, p - 1, min, cap);
    }
    assert Separated(post, min) && InBounds(post, min, cap) by {
      SeparatedSlice(spans, p + 1, |spans|, min);
      InBoundsSlice(spans, p + 1, |spans|, min, cap);
      assert spans[p + 1..|spans|] == post;
    }
    assert m2.stripes >= 1 && End(m2, min) == End(spans[p], min) by {
      var m := Span(spans[p - 1].offset, spans[p - 1].stripes + freed.stripes);
      JoinCells(spans[p - 1], freed, min);
      JoinCells(m, spans[p], min);
    }
    assert |pre| > 0 ==> End(pre[|pre| - 1], min) < m2.offset by {
      if p > 1 {
        assert pre[|pre| - 1] == spans[p - 2];
        assert End(spans[p - 2], min) < spans[p - 1].offset;
      }
    }
    assert |post| > 0 ==> End(m2, min) < post[0].offset by {
      if p + 1 < |spans| {
        assert post[0] == spans[p + 1];
        assert End(spans[p], min) < spans[p + 1].offset;
      }
    }
    Splice(pre, m2, post, min, cap);
  }

  /** The freed span touches only its successor: the successor is extended backwards. */
  lemma MergeWithNext(spans: seq<Span>, freed: Span, min: nat, cap: nat, p: nat)
    requires SplitAt(spans, freed, min, cap, p)
    requires p == 0 || End(spans[p - 1], min) < freed.offset
    requires p < |spans| && spans[p].offset == End(freed, min)
    ensures Separated(Coalesce(spans, freed, min, p), min)
    ensures InBounds(Coalesce(spans, freed, min, p), min, cap)
  {
    SpanEnds(freed, min);
    SpanEnds(spans[p], min);
    var r := Coalesce(spans, freed, min, p);
    var m := Span(freed.offset, spans[p].stripes + freed.stripes);
    JoinCells(freed, spans[p], min);
    assert End(m, min) == End(spans[p], min);
    if p + 1 < |spans| {
      assert End(spans[p], min) < spans[p + 1].offset;
    }
    assert r == MergeNext(spans[p := m], p, End(m, min), min);
    assert r == spans[..p] + [m] + spans[p + 1..];
    SeparatedSlice(spans, 0, p, min);
    InBoundsSlice(spans, 0, p, min, cap);
    SeparatedSlice(spans, p + 1, |spans|, min);
    InBoundsSlice(spans, p + 1, |spans|, min, cap);
    assert spans[p + 1..|spans|] == spans[p + 1..];
    Splice(spans[..p], m, spans[p + 1..], min, cap);
  }

  /** The freed span touches neither neighbour and some span follows it: it is inserted before that span. */
  lemma InsertAlone(spans: seq<Span>, freed: Span, min: nat, cap: nat, p: nat)
    requires SplitAt(spans, freed, min, cap, p)
    requires p == 0 || End(spans[p - 1], min) < freed.offset
    requires p < |spans| && spans[p].offset != End(freed, min)
    ensures Separated(Coalesce(spans, freed, min, p), min)
    ensures InBounds(Coalesce(spans, freed, min, p), min, cap)
  {
    SpanEnds(freed, min);
    var r := Coalesce(spans, freed, min, p);
    assert r == spans[..p] + [freed] + spans[p..];
    SeparatedSlice(spans, 0, p, min);
    InBoundsSlice(spans, 0, p, min, cap);
    SeparatedSlice(spans, p, |spans|, min);
    InBoundsSlice(spans, p, |spans|, min, cap);
    assert spans[p..|spans|] == spans[p..];
    Splice(spans[..p], freed, spans[p..], min, cap);
  }

  /** The freed span lies past every free span and does not touch the last: it is appended. */
  lemma AppendAlone(spans: seq<Span>, freed: Span, min: nat, cap: nat)
    requires SplitAt(spans, freed, min, cap, |spans|)
    requires |spans| == 0 || End(spans[|spans| - 1], min) < freed.offset
    ensures Separated(Coalesce(spans, freed, min, |spans|), min)
    ensures InBounds(Coalesce(spans, freed, min, |spans|), min, cap)
  {
    Splice(spans, freed, [], min, cap);
    assert spans + [freed] + [] == spans + [freed];
  }

  /**
   * Freeing a non-empty run of whole stripes that lies inside the slab and
   * overlaps no free span keeps the free list strictly ordered and never
   * adjacent: the freed span merges with its predecessor, its successor, both,
   * or neither.
   */
  lemma FreeKeepsWellFormed(s: Slab, offset: nat, length: nat)
    requires WellFormed(s)
    requires length / s.minimumAllocationSize >= 1
    requires SpanCells(Span(offset, length / s.minimumAllocationSize), s.minimumAllocationSize) !! FreeCells(s.freeSpans, s.minimumAllocationSize)
    requires End(Span(offset, length / s.minimumAllocationSize), s.minimumAllocationSize) <= Capacity(s)
    ensures WellFormed(Free(s, offset, length))
  {
    var min := s.minimumAllocationSize;
    var cap := Capacity(s);
    var spans := s.freeSpans;
    var freed := Span(offset, length / min);
    var p := SplitPoint(spans, freed, min, cap);
    assert SplitAt(spans, freed, min, cap, p);
    var q := if p > 0 && End(spans[p - 1], min) == freed.offset then p - 1 else p;
    forall j | 0 <= j < q
      ensures End(spans[j], min) < freed.offset
    {
      if j < p - 1 {
        assert End(spans[j], min) < spans[p - 1].offset;
        SpanEnds(spans[p - 1], min);
      }
    }
    CoalesceSkips(spans, freed, min, 0, q);
    assert Free(s, offset, length).freeSpans == Coalesce(spans, freed, min, q);
    if q < p {
      MergeWithPrevious(spans, freed, min, cap, p);
    } else if p < |spans| && spans[p].offset == End(freed, min) {
      MergeWithNext(spans, freed, min, cap, p);
    } else if p < |spans| {
      InsertAlone(spans, freed, min, cap, p);
    } else {
      AppendAlone(spans, freed, min, cap);
    }
  }

  /**
   * Freeing a zero-byte allocation, as `Allocate(s, 0)` hands out, inserts a
   * zero-stripe span at the same offset as an existing span: the list is no
   * longer strictly ordered.
   */
  lemma ZeroLengthFreeBreaksOrder()
    ensures var s := New(64, 16);
      && Allocate(s, 0) == Some((s, Block(0, 0)))
      && Free(s, 0, 0).freeSpans == [Span(0, 4), Span(0, 0)]
      && WellFormed(s)
      && !WellFormed(Free(s, 0, 0))
  {
    var s := New(64, 16);
    NewWellFormed(64, 16);
    assert s.freeSpans == [Span(0, 4)];
    assert FindTightest(s.freeSpans, 0, 1, Some(BestSpan(0, 4))) == Some(BestSpan(0, 4));
    assert FindTightest(s.freeSpans, 0, 0, None) == Some(BestSpan(0, 4));
    assert Choose(s.freeSpans, 0) == Some(0);
    assert s.freeSpans[0 := Span(0 + 0 * 16, 4 - 0)] == s.freeSpans;
    assert Coalesce(s.freeSpans, Span(0, 0), 16, 0) == Coalesce(s.freeSpans, Span(0, 0), 16, 1);
  }

  // ---------------------------------------------------------------------------
  // Alignment: spans and blocks start on stripe boundaries

  /** `x` is a whole number of stripes from the slab's start. */
  ghost predicate OnStripe(x: nat, min: nat) {
    min >= 1 && x % min == 0
  }

  /** Every free span starts on a stripe boundary. */
  ghost predicate Aligned(spans: seq<Span>, min: nat) {
    forall i :: 0 <= i < |spans| ==> OnStripe(spans[i].offset, min)
  }

  /** Whole stripes past a stripe boundary land on a stripe boundary. */
  lemma StripeStep(x: nat, k: nat, min: nat)
    requires OnStripe(x, min)
    ensures OnStripe(x + k * min, min)
  {
    var q := x / min;
    assert x == q * min;
    assert x + k * min == (q + k) * min;
    MulDiv(q + k, min);
    assert (q + k) * min == ((q + k) * min) / min * min + ((q + k) * min) % min;
  }

  lemma AlignedPieces(pre: seq<Span>, x: Span, post: seq<Span>, min: nat)
    requires Aligned(pre, min) && OnStripe(x.offset, min) && Aligned(post, min)
    ensures Aligned(pre + [x] + post, min)
  {
    var r := pre + [x] + post;
    forall i | 0 <= i < |r|
      ensures OnStripe(r[i].offset, min)
    {
      if i < |pre| {
        assert r[i] == pre[i];
      } else if i > |pre| {
        assert r[i] == post[i - |pre| - 1];
      }
    }
  }

  lemma AlignedJoin(pre: seq<Span>, post: seq<Span>, min: nat)
    requires Aligned(pre, min) && Aligned(post, min)
    ensures Aligned(pre + post, min)
  {
    var r := pre + post;
    forall i | 0 <= i < |r|
      ensures OnStripe(r[i].offset, min)
    {
      if i < |pre| {
        assert r[i] == pre[i];
      } else {
        assert r[i] == post[i - |pre|];
      }
    }
  }

  lemma AlignedSlice(spans: seq<Span>, lo: nat, hi: nat, min: nat)
    requires lo <= hi <= |spans| && Aligned(spans, min)
    ensures Aligned(spans[lo..hi], min)
  {
    var r := spans[lo..hi];
    forall i | 0 <= i < |r|
      ensures OnStripe(r[i].offset, min)
    {
      assert r[i] == spans[lo + i];
    }
  }

  /** A new slab's one span starts at byte 0. */
  lemma NewAligned(length: nat, min: nat)
    requires min >= 1
    ensures Aligned(New(length, min).freeSpans, min)
  {
  }

  /**
   * An allocation from an aligned free list hands out a block that starts on a
   * stripe boundary and leaves the list aligned: the block is the front of a
   * span, and what is left of that span starts whole stripes further on.
   */
  lemma AllocateAligned(s: Slab, length: nat, s': Slab, b: Block)
    requires s.minimumAllocationSize >= 1 && Aligned(s.freeSpans, s.minimumAllocationSize)
    requires Allocate(s, length) == Some((s', b))
    ensures b.offset % s.minimumAllocationSize == 0
    ensures Aligned(s'.freeSpans, s.minimumAllocationSize)
  {
    var min := s.minimumAllocationSize;
    var spans := s.freeSpans;
    var need := StripesNeeded(length, min);
    AllocateShape(s, length, s', b);
    var i := Choose(spans, need).value;
    CarveShape(spans, i, need, min);
    assert OnStripe(spans[i].offset, min);
    AlignedSlice(spans, 0, i, min);
    AlignedSlice(spans, i + 1, |spans|, min);
    if need == spans[i].stripes {
      AlignedJoin(spans[..i], spans[i+1..], min);
    } else {
      var carved := Span(spans[i].offset + need * min, spans[i].stripes - need);
      StripeStep(spans[i].offset, need, min);
      AlignedPieces(spans[..i], carved, spans[i+1..], min);
      assert spans[i := carved] == spans[..i] + [carved] + spans[i+1..];
    }
  }

  lemma MergeNextAligned(spans: seq<Span>, index: nat, newEnd: nat, min: nat)
    requires index < |spans| && End(spans[index], min) == newEnd && Aligned(spans, min)
    ensures Aligned(MergeNext(spans, index, newEnd, min), min)
  {
    MergeNextShape(spans, index, newEnd, min);
    if index + 1 < |spans| && spans[index + 1].offset == newEnd {
      AlignedSlice(spans, 0, index, min);
      AlignedSlice(spans, index + 2, |spans|, min);
      AlignedPieces(spans[..index], Span(spans[index].offset, spans[index].stripes + spans[index + 1].stripes), spans[index + 2..], min);
    }
  }

  lemma AlignedUpdate(spans: seq<Span>, index: nat, x: Span, min: nat)
    requires index < |spans| && Aligned(spans, min) && OnStripe(x.offset, min)
    ensures Aligned(spans[index := x], min)
  {
    var r := spans[index := x];
    forall i | 0 <= i < |r| ensures OnStripe(r[i].offset, min) {
      if i != index {
        assert r[i] == spans[i];
      }
    }
  }

  /** Each span the free loop leaves starts where an old span or the freed span started. */
  lemma {:induction false} CoalesceAligned(spans: seq<Span>, freed: Span, min: nat, index: nat)
    requires index <= |spans| && Aligned(spans, min) && OnStripe(freed.offset, min)
    ensures Aligned(Coalesce(spans, freed, min, index), min)
    decreases |spans| - index
  {
    if index == |spans| {
      AlignedPieces(spans, freed, [], min);
      assert spans + [freed] + [] == spans + [freed];
    } else if spans[index].offset < freed.offset && End(spans[index], min) == freed.offset {
      var merged := Span(spans[index].offset, spans[index].stripes + freed.stripes);
      AlignedUpdate(spans, index, merged, min);
      MergeNextAligned(spans[index := merged], index, End(merged, min), min);
    } else if freed.offset < spans[index].offset {
      AlignedSlice(spans, 0, index, min);
      AlignedSlice(spans, index, |spans|, min);
      if spans[index].offset == End(freed, min) {
        var merged := Span(freed.offset, spans[index].stripes + freed.stripes);
        AlignedUpdate(spans, index, merged, min);
        MergeNextAligned(spans[index := merged], index, End(merged, min), min);
      } else {
        AlignedPieces(spans[..index], freed, spans[index..], min);
      }
    } else {
      CoalesceAligned(spans, freed, min, index + 1);
    }
  }

  /** Freeing at a stripe boundary keeps the free list aligned. */
  lemma FreeAligned(s: Slab, offset: nat, length: nat)
    requires Aligned(s.freeSpans, s.minimumAllocationSize) && OnStripe(offset, s.minimumAllocationSize)
    ensures Aligned(Free(s, offset, length).freeSpans, s.minimumAllocationSize)
  {
    CoalesceAligned(s.freeSpans, Span(offset, length / s.minimumAllocationSize), s.minimumAllocationSize, 0);
  }

  // ---------------------------------------------------------------------------
  // Tiling with the live allocations

  ghost function LiveCells(live: seq<Block>): set<int>
    decreases |live|
  {
    if |live| == 0 then {} else BlockCells(live[0]) + LiveCells(live[1..])
  }

  function LiveStripes(live: seq<Block>, min: nat): nat
    requires min >= 1
    decreases |live|
  {
    if |live| == 0 then 0 else live[0].size / min + LiveStripes(live[1..], min)
  }

  lemma {:induction false} LiveConcat(a: seq<Block>, b: seq<Block>, min: nat)
    requires min >= 1
    ensures LiveCells(a + b) == LiveCells(a) + LiveCells(b)
    ensures LiveStripes(a + b, min) == LiveStripes(a, min) + LiveStripes(b, min)
    decreases |a|
  {
    if |a| == 0 {
      assert a + b == b;
    } else {
      assert (a + b)[1..] == a[1..] + b;
      LiveConcat(a[1..], b, min);
    }
  }

  lemma LiveSingle(b: Block, min: nat)
    requires min >= 1
    ensures LiveCells([b]) == BlockCells(b)
    ensures LiveStripes([b], min) == b.size / min
  {
    assert LiveCells([b]) == BlockCells(b) + LiveCells([]);
  }

  /** The live list without position `i` accounts for everything but that block. */
  lemma LiveRemove(live: seq<Block>, i: nat, min: nat)
    requires min >= 1 && i < |live|
    ensures LiveCells(live) == LiveCells(live[..i] + live[i+1..]) + BlockCells(live[i])
    ensures LiveStripes(live, min) == LiveStripes(live[..i] + live[i+1..], min) + live[i].size / min
  {
    assert live == live[..i] + ([live[i]] + live[i+1..]);
    LiveConcat(live[..i], [live[i]] + live[i+1..], min);
    LiveConcat([live[i]], live[i+1..], min);
    LiveSingle(live[i], min);
    LiveConcat(live[..i], live[i+1..], min);
  }

  lemma {:induction false} LiveDisjoint(live: seq<Block>, cells: set<int>)
    requires forall j :: 0 <= j < |live| ==> BlockCells(live[j]) !! cells
    ensures LiveCells(live) !! cells
    decreases |live|
  {
    if |live| > 0 {
      LiveDisjoint(live[1..], cells);
    }
  }

  /**
   * The slab's accounting between operations: the free list is well formed,
   * free spans and live blocks start on stripe boundaries, live blocks are
   * whole stripes, pairwise disjoint and disjoint from the
   * free bytes, free and live bytes together are exactly the slab's stripes,
   * and free plus live stripes equal the slab's total.
   */
  ghost predicate Tiling(s: Slab, live: seq<Block>) {
    && WellFormed(s)
    && Aligned(s.freeSpans, s.minimumAllocationSize)
    && (forall i :: 0 <= i < |live| ==> OnStripe(live[i].offset, s.minimumAllocationSize))
    && (forall i :: 0 <= i < |live| ==> live[i].size / s.minimumAllocationSize * s.minimumAllocationSize == live[i].size)
    && (forall i :: 0 <= i < |live| ==> BlockCells(live[i]) !! FreeCells(s.freeSpans, s.minimumAllocationSize))
    && (forall i, j :: 0 <= i < |live| && 0 <= j < |live| && i != j ==> BlockCells(live[i]) !! BlockCells(live[j]))
    && FreeCells(s.freeSpans, s.minimumAllocationSize) + LiveCells(live) == Range(0, Capacity(s))
    && FreeStripes(s.freeSpans) + LiveStripes(live, s.minimumAllocationSize) == TotalStripes(s)
  }

  /** A new slab with at least one stripe is all free. */
  lemma NewTiling(length: nat, min: nat)
    requires min >= 1 && length >= min
    ensures Tiling(New(length, min), [])
  {
    NewWellFormed(length, min);
    NewAligned(length, min);
  }

  /** Moving a part of the free bytes to the live bytes keeps their union. */
  lemma CarveAccounts(free: set<int>, free': set<int>, live: set<int>, block: set<int>, all: set<int>)
    requires block <= free && free' == free - block && free + live == all
    ensures free' + (live + block) == all
  {
  }

  /** A block carved from free bytes overlaps none of the live blocks, which avoid those bytes. */
  lemma CarvedApart(live: seq<Block>, b: Block, free: set<int>)
    requires BlockCells(b) <= free
    requires forall j :: 0 <= j < |live| ==> BlockCells(live[j]) !! free
    ensures forall j :: 0 <= j < |live| ==> BlockCells(b) !! BlockCells(live[j])
  {
  }

  /** An allocation joins the live blocks without breaking the tiling. */
  lemma AllocateKeepsTiling(s: Slab, live: seq<Block>, length: nat, s': Slab, b: Block)
    requires Tiling(s, live)
    requires Allocate(s, length) == Some((s', b))
    ensures Tiling(s', live + [b])
    ensures b.offset % s.minimumAllocationSize == 0
    ensures forall j :: 0 <= j < |live| ==> BlockCells(b) !! BlockCells(live[j])
  {
    var min := s.minimumAllocationSize;
    var need := StripesNeeded(length, min);
    AllocateCarves(s, length, s', b);
    AllocateAligned(s, length, s', b);
    var live' := live + [b];
    var F := FreeCells(s.freeSpans, min);
    var F' := FreeCells(s'.freeSpans, min);
    MulDiv(need, min);
    assert b.size / min * min == b.size;
    LiveConcat(live, [b], min);
    LiveSingle(b, min);
    CarvedApart(live, b, F);
    forall i | 0 <= i < |live'|
      ensures OnStripe(live'[i].offset, min)
      ensures live'[i].size / min * min == live'[i].size
      ensures BlockCells(live'[i]) !! F'
    {
      if i < |live| {
        assert live'[i] == live[i];
      }
    }
    forall i, j | 0 <= i < |live'| && 0 <= j < |live'| && i != j
      ensures BlockCells(live'[i]) !! BlockCells(live'[j])
    {
      if i < |live| && j < |live| {
        assert live'[i] == live[i] && live'[j] == live[j];
      }
    }
    CarveAccounts(F, F', LiveCells(live), BlockCells(b), Range(0, Capacity(s)));
    assert FreeStripes(s'.freeSpans) + LiveStripes(live', min) == TotalStripes(s');
  }

  /** Dropping position `i` from the live blocks keeps what held of every other block. */
  lemma RemoveKeepsApart(live: seq<Block>, i: nat, rest: seq<Block>, min: nat, cells: set<int>)
    requires min >= 1 && i < |live| && rest == live[..i] + live[i+1..]
    requires forall j :: 0 <= j < |live| ==> OnStripe(live[j].offset, min) && live[j].size / min * min == live[j].size
    requires forall j :: 0 <= j < |live| && j != i ==> BlockCells(live[j]) !! cells
    requires forall j1, j2 :: 0 <= j1 < |live| && 0 <= j2 < |live| && j1 != j2 ==> BlockCells(live[j1]) !! BlockCells(live[j2])
    ensures forall j :: 0 <= j < |rest| ==>
      && OnStripe(rest[j].offset, min) && rest[j].size / min * min == rest[j].size
      && BlockCells(rest[j]) !! cells
    ensures forall j1, j2 :: 0 <= j1 < |rest| && 0 <= j2 < |rest| && j1 != j2 ==> BlockCells(rest[j1]) !! BlockCells(rest[j2])
  {
    forall j | 0 <= j < |rest|
      ensures rest[j] == live[if j < i then j else j + 1]
    {
    }
  }

  /** A block of whole stripes inside `[0, cap)` is the span of its stripes, ending by `cap`. */
  lemma BlockFits(b: Block, min: nat, cap: nat)
    requires min >= 1 && b.size >= 1 && b.size / min * min == b.size
    requires BlockCells(b) <= Range(0, cap)
    ensures b.size / min >= 1
    ensures SpanCells(Span(b.offset, b.size / min), min) == BlockCells(b)
    ensures End(Span(b.offset, b.size / min), min) <= cap
  {
    assert b.offset + b.size - 1 in BlockCells(b);
  }

  /**
   * Returning a live, non-empty block to its slab removes it from the live
   * blocks and keeps the tiling.
   */
  lemma FreeKeepsTiling(s: Slab, live: seq<Block>, i: nat)
    requires Tiling(s, live)
    requires i < |live| && live[i].size >= 1
    ensures Tiling(Free(s, live[i].offset, live[i].size), live[..i] + live[i+1..])
  {
    var min := s.minimumAllocationSize;
    var b := live[i];
    assert b.size / min * min == b.size && BlockCells(b) !! FreeCells(s.freeSpans, min);
    assert BlockCells(b) <= Range(0, Capacity(s)) by {
      LiveRemove(live, i, min);
    }
    BlockFits(b, min, Capacity(s));
    FreeKeepsWellFormed(s, b.offset, b.size);
    FreeAligned(s, b.offset, b.size);
    var s' := Free(s, b.offset, b.size);
    var F' := FreeCells(s'.freeSpans, min);
    assert F' == FreeCells(s.freeSpans, min) + BlockCells(b);
    forall j | 0 <= j < |live| && j != i
      ensures BlockCells(live[j]) !! F'
    {
    }
    RemoveKeepsApart(live, i, live[..i] + live[i+1..], min, F');
    LiveRemove(live, i, min);
  }

}

=== FILE: slabring.dfy ===
/**
 * The ring of slabs shared by every handle of one allocator. Slabs are only
 * ever appended; each allocation starts its scan one slot before where the
 * previous scan started, visits every slab once, and only then creates fresh
 * slabs until one serves the request or the memory limit is reached.
 */
module SlabRing {
  import opened Wrappers
  import opened AllocatorConfig
  import Slab

  // ---------------------------------------------------------------------------
  // The iterator

  /** `position` is the last slot handed out; `None` before the first. */
  datatype RingIter = RingIter(len: nat, start: nat, position: Option<nat>)

  ghost predicate IterValid(it: RingIter) {
    && (it.len == 0 ==> it.start == 0 && it.position.None?)
    && (it.len > 0 ==> it.start < it.len)
    && (it.position.Some? ==> it.position.value < it.len)
  }

  /** Hands out the next slot, wrapping at the end, and stops on returning to `start`. */
  function Next(it: RingIter): (r: (Option<nat>, RingIter))
    requires IterValid(it)
    ensures IterValid(r.1) && r.1.len == it.len && r.1.start == it.start
    ensures r.0.Some? ==> r.0.value < it.len && r.1.position == r.0
    ensures r.0.None? ==> r.1 == it
  {
    match it.position
    case Some(position) =>
      var next := if position + 1 == it.len then 0 else position + 1;
      if next == it.start then (None, it) else (Some(next), it.(position := Some(next)))
    case None =>
      if it.len == 0 then (None, it) else (Some(it.start), it.(position := Some(it.start)))
  }

  /** How many more slots the iterator will hand out. */
  function Remaining(it: RingIter): nat
    requires IterValid(it)
  {
    match it.position
    case None => it.len
    case Some(p) => if p >= it.start then it.len - 1 - p + it.start else it.start - 1 - p
  }

  lemma NextDecreases(it: RingIter)
    requires IterValid(it)
    ensures Next(it).0.Some? ==> Remaining(Next(it).1) < Remaining(it)
  {
  }

  /** Every slot the iterator hands out, in order. */
  function Collect(it: RingIter): (r: seq<nat>)
    requires IterValid(it)
    ensures |r| == Remaining(it)
    ensures forall k :: 0 <= k < |r| ==> r[k] < it.len
    decreases Remaining(it)
  {
    var (x, it') := Next(it);
    NextDecreases(it);
    match x
    case None => []
    case Some(i) => [i] + Collect(it')
  }

  /** The slots `lo`, `lo + 1`, ..., `hi - 1`. */
  function Indices(lo: nat, hi: nat): (r: seq<nat>)
    requires lo <= hi
    ensures |r| == hi - lo
    ensures forall k :: 0 <= k < |r| ==> r[k] == lo + k
  {
    seq(hi - lo, k requires 0 <= k < hi - lo => lo + k)
  }

  /** The order a full scan visits the slots in: `start` to the end, then the front. */
  function Order(len: nat, start: nat): seq<nat>
    requires start <= len
  {
    Indices(start, len) + Indices(0, start)
  }

  /** The slots a scan from `start` still visits after slot `p`, in order. */
  function After(len: nat, start: nat, p: nat): seq<nat>
    requires start <= len && p < len
  {
    if p >= start then Indices(p + 1, len) + Indices(0, start) else Indices(p + 1, start)
  }

  /** Handing out one slot peels it off the front of what is collected. */
  lemma CollectStep(it: RingIter)
    requires IterValid(it) && Next(it).0.Some?
    ensures Collect(it) == [Next(it).0.value] + Collect(Next(it).1)
  {
  }

  lemma IndicesCons(lo: nat, hi: nat)
    requires lo < hi
    ensures Indices(lo, hi) == [lo] + Indices(lo + 1, hi)
  {
  }

  /** The slot after `p` heads what is left after `p`, unless the scan is back at `start`. */
  lemma AfterStep(len: nat, start: nat, p: nat)
    requires start < len && p < len
    ensures var next := if p + 1 == len then 0 else p + 1;
      && (next == start ==> After(len, start, p) == [])
      && (next != start ==> After(len, start, p) == [next] + After(len, start, next))
  {
    if p + 1 == len {
      if start != 0 {
        AfterWraps(len, start);
      }
    } else if p + 1 != start {
      AfterAdvances(len, start, p);
    }
  }

  /** Past the last slot the scan wraps to slot 0. */
  lemma AfterWraps(len: nat, start: nat)
    requires 0 < start < len
    ensures After(len, start, len - 1) == [0] + After(len, start, 0)
  {
    assert After(len, start, len - 1) == Indices(len, len) + Indices(0, start);
    assert Indices(len, len) == [];
    IndicesCons(0, start);
  }

  /** Away from the end and from `start`, the scan moves to the next slot. */
  lemma AfterAdvances(len: nat, start: nat, p: nat)
    requires start < len && p + 1 < len && p + 1 != start
    ensures After(len, start, p) == [p + 1] + After(len, start, p + 1)
  {
    if p >= start {
      var tail := Indices(p + 2, len);
      var front := Indices(0, start);
      IndicesCons(p + 1, len);
      calc {
        After(len, start, p);
        Indices(p + 1, len) + front;
        ([p + 1] + tail) + front;
        [p + 1] + (tail + front);
        [p + 1] + After(len, start, p + 1);
      }
    } else {
      IndicesCons(p + 1, start);
      assert After(len, start, p) == Indices(p + 1, start);
      assert After(len, start, p + 1) == Indices(p + 2, start);
    }
  }

  /** What remains to be handed out once slot `position` has been. */
  lemma {:induction false} CollectFrom(it: RingIter)
    requires IterValid(it) && it.position.Some?
    ensures var p := it.position.value;
      Collect(it) == if p >= it.start then Indices(p + 1, it.len) + Indices(0, it.start) else Indices(p + 1, it.start)
    decreases Remaining(it)
  {
    var p := it.position.value;
    var (x, it') := Next(it);
    AfterStep(it.len, it.start, p);
    if x.Some? {
      NextDecreases(it);
      CollectStep(it);
      CollectFrom(it');
      assert Collect(it') == After(it.len, it.start, x.value);
    }
    assert Collect(it) == After(it.len, it.start, p);
  }

  /** A scan from a new iterator visits every slot exactly once, starting at `start`. */
  lemma ScanVisitsEverySlotOnce(len: nat, start: nat)
    requires start < len
    ensures Collect(RingIter(len, start, None)) == Order(len, start)
    ensures |Order(len, start)| == len && Order(len, start)[0] == start
    ensures forall i :: 0 <= i < len ==> i in Order(len, start)
    ensures forall a, b :: 0 <= a < b < len ==> Order(len, start)[a] != Order(len, start)[b]
  {
    var it := RingIter(len, start, None);
    var it' := Next(it).1;
    CollectStep(it);
    CollectFrom(it');
    IndicesCons(start, len);
    assert Collect(it') == Indices(start + 1, len) + Indices(0, start);
    OrderSlots(len, start);
  }

  /** Slot `k` of the order is `start + k`, wrapping past the end. */
  lemma OrderSlots(len: nat, start: nat)
    requires start < len
    ensures |Order(len, start)| == len
    ensures forall k :: 0 <= k < len ==> Order(len, start)[k] == if k < len - start then start + k else k - (len - start)
    ensures forall i :: 0 <= i < len ==> i in Order(len, start)
  {
    var order := Order(len, start);
    forall i | 0 <= i < len
      ensures i in order
    {
      if i >= start {
        assert order[i - start] == i;
      } else {
        assert order[len - start + i] == i;
      }
    }
  }

  lemma EmptyScanVisitsNothing()
    ensures Collect(RingIter(0, 0, None)) == []
  {
  }

  // ---------------------------------------------------------------------------
  // The ring

  datatype Ring = Ring(config: Config, entries: seq<Slab.Slab>, cycle: nat)

  /** Every slab was created from the ring's configuration; the cycle names a slot. */
  ghost predicate Valid(r: Ring) {
    && r.config.minimumAllocationSize >= 1
    && (r.cycle == 0 || r.cycle < |r.entries|)
    && forall i :: 0 <= i < |r.entries| ==> Uniform(r.config, r.entries[i])
  }

  ghost predicate Uniform(c: Config, s: Slab.Slab) {
    s.length == c.slabSize && s.minimumAllocationSize == c.minimumAllocationSize
  }

  function New(config: Config): (r: Ring)
    requires config.minimumAllocationSize >= 1
    ensures Valid(r) && r.config == config && |r.entries| == 0
  {
    Ring(config, [], 0)
  }

  /** The slot before `cycle`, wrapping from the first slot to the last. */
  function NextCycle(cycle: nat, len: nat): (r: nat)
    requires cycle < len
    ensures r < len
    ensures r == (cycle + len - 1) % len
  {
    ModOnce(cycle + len - 1, len);
    if cycle == 0 then len - 1 else cycle - 1
  }

  lemma ModOnce(x: nat, len: nat)
    requires 0 < len <= x + 1 && x < 2 * len
    ensures x % len == if x < len then x else x - len
  {
    var q := x / len;
    assert x == q * len + x % len;
    if q >= 2 {
      Slab.MulAtLeast(2, q, len);
    } else if q == 0 && x >= len {
      assert false;
    } else if q == 1 && x < len {
      assert false;
    }
  }

  /** Steps the cycle back one slot and starts an iterator there. */
  function Iter(r: Ring): (res: (Ring, RingIter))
    requires Valid(r)
    ensures Valid(res.0) && res.0.config == r.config && res.0.entries == r.entries
    ensures IterValid(res.1) && res.1.len == |r.entries| && res.1.position.None?
    ensures |r.entries| == 0 ==> res.0 == r && res.1.start == 0
    ensures |r.entries| > 0 ==> res.1.start == res.0.cycle == NextCycle(r.cycle, |r.entries|)
  {
    if |r.entries| == 0 then (r, RingIter(0, 0, None))
    else
      var next := NextCycle(r.cycle, |r.entries|);
      (r.(cycle := next), RingIter(|r.entries|, next, None))
  }

  /** Whether `new_slab` may append another slab under the memory limit. */
  predicate CanGrow(r: Ring) {
    match r.config.memoryLimit
    case None => true
    case Some(limit) => |r.entries| * r.config.slabSize < limit
  }

  /** Appends a fresh slab when the memory limit allows, and returns it. */
  function NewSlab(r: Ring): (res: Option<(Ring, Slab.Slab)>)
    requires Valid(r)
    ensures res.None? <==> !CanGrow(r)
    ensures res.Some? ==>
      var (r', created) := res.value;
      && Valid(r') && r'.config == r.config && r'.cycle == r.cycle
      && |r'.entries| == |r.entries| + 1 && r'.entries[..|r.entries|] == r.entries
      && r'.entries[|r.entries|] == created
      && created == Slab.New(r.config.slabSize, r.config.minimumAllocationSize)
  {
    if CanGrow(r) then
      var created := Slab.New(r.config.slabSize, r.config.minimumAllocationSize);
      var r' := r.(entries := r.entries + [created]);
      assert r'.entries[..|r.entries|] == r.entries;
      Some((r', created))
    else None
  }

  // ---------------------------------------------------------------------------
  // Allocation

  /** What a ring allocation ends in; `Diverges` is a retry loop that never exits. */
  datatype Outcome =
    | Served(ring: Ring, slab: nat, block: Slab.Block)
    | Declined(ring: Ring)
    | Diverges

  /** No free span of the slab is wide enough for `length` bytes rounded up to stripes. */
  ghost predicate Starved(s: Slab.Slab, length: nat)
    requires s.minimumAllocationSize >= 1
  {
    forall j :: 0 <= j < |s.freeSpans| ==> s.freeSpans[j].stripes < Slab.StripesNeeded(length, s.minimumAllocationSize)
  }

  /** Position in `order` of the first slot whose slab has a span wide enough for `length` bytes. */
  ghost function FirstServing(entries: seq<Slab.Slab>, order: seq<nat>, length: nat): (r: Option<nat>)
    requires forall k :: 0 <= k < |order| ==> order[k] < |entries|
    requires forall i :: 0 <= i < |entries| ==> entries[i].minimumAllocationSize >= 1
    ensures r.None? <==> forall k :: 0 <= k < |order| ==> Starved(entries[order[k]], length)
    ensures r.Some? ==>
      && r.value < |order|
      && !Starved(entries[order[r.value]], length)
      && forall k :: 0 <= k < r.value ==> Starved(entries[order[k]], length)
    decreases |order|
  {
    if |order| == 0 then None
    else if !Starved(entries[order[0]], length) then Some(0)
    else
      var rest := order[1..];
      var first := FirstServing(entries, rest, length);
      assert forall k :: 1 <= k < |order| ==> order[k] == rest[k - 1];
      if first.None? then None else Some(first.value + 1)
  }

  datatype Hit = Hit(index: nat, slab: Slab.Slab, block: Slab.Block)

  /** Runs the iterator, trying each slab in turn until one serves the request. */
  function Scan(entries: seq<Slab.Slab>, it: RingIter, length: nat): (r: Option<Hit>)
    requires IterValid(it) && it.len == |entries|
    requires forall i :: 0 <= i < |entries| ==> entries[i].minimumAllocationSize >= 1
    ensures var first := FirstServing(entries, Collect(it), length);
      && (r.None? <==> first.None?)
      && (r.Some? ==>
            && first.Some?
            && r.value.index == Collect(it)[first.value]
            && r.value.index < |entries|
            && r.value.slab.length == entries[r.value.index].length
            && r.value.slab.minimumAllocationSize == entries[r.value.index].minimumAllocationSize
            && Slab.Allocate(entries[r.value.index], length) == Some((r.value.slab, r.value.block)))
    decreases Remaining(it)
  {
    var (x, it') := Next(it);
    NextDecreases(it);
    match x
    case None => None
    case Some(i) =>
      assert Collect(it) == [i] + Collect(it');
      assert Collect(it)[1..] == Collect(it');
      match Slab.Allocate(entries[i], length)
      case Some((s', b)) => Some(Hit(i, s', b))
      case None => Scan(entries, it', length)
  }

  /** Room left under the memory limit; it bounds how often growth can repeat. */
  function Headroom(r: Ring): nat {
    match r.config.memoryLimit
    case None => 0
    case Some(limit) =>
      if r.config.slabSize > 0 && |r.entries| * r.config.slabSize < limit
      then limit - |r.entries| * r.config.slabSize else 0
  }

  lemma PrefixOfPrefix<T>(a: seq<T>, b: seq<T>, c: seq<T>)
    requires |a| <= |b| <= |c| && b[..|a|] == a && c[..|b|] == b
    ensures c[..|a|] == a
  {
    assert forall k :: 0 <= k < |a| ==> c[k] == b[k];
  }

  /**
   * What the retry loop may end in, from ring `r`: a fresh slab appended last
   * serves the request; or the limit is reached and every slab created on the
   * way failed; or growth is unbounded and a fresh slab cannot serve.
   */
  ghost predicate GrowOutcome(r: Ring, length: nat, o: Outcome)
    requires Valid(r)
  {
    && (o.Served? ==>
      && Valid(o.ring) && o.ring.config == r.config && o.ring.cycle == r.cycle
      && |r.entries| <= o.slab && o.slab == |o.ring.entries| - 1
      && o.ring.entries[..|r.entries|] == r.entries
      && Slab.Allocate(Slab.New(r.config.slabSize, r.config.minimumAllocationSize), length)
         == Some((o.ring.entries[o.slab], o.block)))
    && (o.Declined? ==>
      && Valid(o.ring) && o.ring.config == r.config && o.ring.cycle == r.cycle
      && !CanGrow(o.ring)
      && |r.entries| <= |o.ring.entries| && o.ring.entries[..|r.entries|] == r.entries
      && (|o.ring.entries| > |r.entries| ==>
            Slab.Allocate(Slab.New(r.config.slabSize, r.config.minimumAllocationSize), length).None?))
    && (o.Diverges? ==>
      && CanGrow(r)
      && (r.config.memoryLimit.None? || r.config.slabSize == 0)
      && Slab.Allocate(Slab.New(r.config.slabSize, r.config.minimumAllocationSize), length).None?)
  }

  /**
   * The retry loop: create a slab and try it; a fresh slab that cannot serve
   * is kept and another is created. Without a memory limit (or with empty
   * slabs) nothing stops the loop, which is reported as `Diverges`.
   */
  function Grow(r: Ring, length: nat): (o: Outcome)
    requires Valid(r)
    ensures GrowOutcome(r, length, o)
    decreases Headroom(r)
  {
    match NewSlab(r)
    case None => Declined(r)
    case Some((r1, created)) =>
      match Slab.Allocate(created, length)
      case Some((s', b)) =>
        FreshServes(r, r1, created, length);
        Served(r1.(entries := r1.entries[|r.entries| := s']), |r.entries|, b)
      case None =>
        if r.config.memoryLimit.None? || r.config.slabSize == 0 then Diverges
        else
          assert (|r.entries| + 1) * r.config.slabSize == |r.entries| * r.config.slabSize + r.config.slabSize;
          var o := Grow(r1, length);
          FreshFails(r, r1, created, length, o);
          o
  }

  /** A fresh slab that serves is kept last in the ring, carrying the carved state. */
  lemma FreshServes(r: Ring, r1: Ring, created: Slab.Slab, length: nat)
    requires Valid(r) && NewSlab(r) == Some((r1, created))
    requires Slab.Allocate(created, length).Some?
    ensures var (s', b) := Slab.Allocate(created, length).value;
      GrowOutcome(r, length, Served(r1.(entries := r1.entries[|r.entries| := s']), |r.entries|, b))
  {
    var (s', b) := Slab.Allocate(created, length).value;
    assert r1.entries[|r.entries| := s'][..|r.entries|] == r.entries;
  }

  /** A fresh slab that cannot serve stays in the ring while the loop goes on. */
  lemma FreshFails(r: Ring, r1: Ring, created: Slab.Slab, length: nat, o: Outcome)
    requires Valid(r) && NewSlab(r) == Some((r1, created))
    requires Slab.Allocate(created, length).None?
    requires r.config.memoryLimit.Some? && r.config.slabSize > 0
    requires GrowOutcome(r1, length, o)
    ensures GrowOutcome(r, length, o)
  {
    if o.Served? || o.Declined? {
      PrefixOfPrefix(r.entries, r1.entries, o.ring.entries);
    }
  }

  /**
   * Requests at or above the maximum are declined at once; otherwise every
   * existing slab is tried in ring order, then fresh slabs.
   */
  function Allocate(r: Ring, length: nat): (o: Outcome)
    requires Valid(r)
    ensures length >= r.config.maximumAllocationSize ==> o == Declined(r)
    ensures o.Served? ==>
      && Valid(o.ring) && o.ring.config == r.config
      && |r.entries| <= |o.ring.entries| && o.slab < |o.ring.entries|
      && length < r.config.maximumAllocationSize
      && length <= o.block.size < length + r.config.minimumAllocationSize
    ensures o.Declined? ==>
      && Valid(o.ring) && o.ring.config == r.config
      && |r.entries| <= |o.ring.entries|
  {
    if length >= r.config.maximumAllocationSize then Declined(r)
    else
      var (r1, it) := Iter(r);
      match Scan(r1.entries, it, length)
      case Some(hit) => Served(Commit(r1, hit), hit.index, hit.block)
      case None => Grow(r1, length)
  }

  /** Records the slab a scan allocated from in its slot. */
  function Commit(r: Ring, hit: Hit): (r': Ring)
    requires Valid(r) && hit.index < |r.entries| && Uniform(r.config, hit.slab)
    ensures Valid(r') && r'.config == r.config && r'.cycle == r.cycle
    ensures |r'.entries| == |r.entries| && r'.entries[hit.index] == hit.slab
    ensures forall j :: 0 <= j < |r.entries| && j != hit.index ==> r'.entries[j] == r.entries[j]
  {
    r.(entries := r.entries[hit.index := hit.slab])
  }

  /**
   * With slabs present, the ring steps its cycle back one slot and the first
   * slab in ring order from there that can serve the request does; only when
   * none can does the ring grow.
   */
  lemma ServesFirstInRingOrder(r: Ring, length: nat)
    requires Valid(r) && |r.entries| > 0
    requires length < r.config.maximumAllocationSize
    ensures var start := NextCycle(r.cycle, |r.entries|);
      var order := Order(|r.entries|, start);
      var first := FirstServing(r.entries, order, length);
      var o := Allocate(r, length);
      && (first.Some? ==>
            && o.Served? && o.slab == order[first.value]
            && o.ring.cycle == start && o.ring.config == r.config
            && |o.ring.entries| == |r.entries|
            && Slab.Allocate(r.entries[o.slab], length) == Some((o.ring.entries[o.slab], o.block))
            && forall j :: 0 <= j < |r.entries| && j != o.slab ==> o.ring.entries[j] == r.entries[j])
      && (first.None? ==> o == Grow(r.(cycle := start), length))
  {
    var len := |r.entries|;
    var start := NextCycle(r.cycle, len);
    var it := RingIter(len, start, None);
    assert Iter(r) == (r.(cycle := start), it);
    ScanVisitsEverySlotOnce(len, start);
    var order := Order(len, start);
    assert Collect(it) == order;
    var first := FirstServing(r.entries, order, length);
    var hit := Scan(r.entries, it, length);
    assert hit.None? <==> first.None?;
    var o := Allocate(r, length);
    if hit.Some? {
      assert o == Served(Commit(r.(cycle := start), hit.value), hit.value.index, hit.value.block);
      assert o.slab == order[first.value];
    } else {
      assert o == Grow(r.(cycle := start), length);
    }
  }

  /** An empty ring leaves the cycle alone and goes straight to growing. */
  lemma EmptyRingGrows(r: Ring, length: nat)
    requires Valid(r) && |r.entries| == 0
    requires length < r.config.maximumAllocationSize
    ensures Allocate(r, length) == Grow(r, length)
  {
  }

  /** A fresh slab serves exactly the requests that need no more stripes than it has. */
  lemma FreshSlabServes(c: Config, length: nat)
    requires c.minimumAllocationSize >= 1
    ensures Slab.Allocate(Slab.New(c.slabSize, c.minimumAllocationSize), length).Some?
      <==> Slab.StripesNeeded(length, c.minimumAllocationSize) <= c.slabSize / c.minimumAllocationSize
  {
    var s := Slab.New(c.slabSize, c.minimumAllocationSize);
    assert s.freeSpans == [Slab.Span(0, c.slabSize / c.minimumAllocationSize)];
  }

  /** When a configuration fits, every request shorter than the maximum fits a fresh slab. */
  lemma FitsServesFresh(c: Config, length: nat)
    requires Fits(c) && length < c.maximumAllocationSize
    ensures Slab.Allocate(Slab.New(c.slabSize, c.minimumAllocationSize), length).Some?
  {
    FreshSlabServes(c, length);
    Slab.NeedWithin(length, c.minimumAllocationSize, c.slabSize / c.minimumAllocationSize);
  }

  /** Under a fitting configuration the ring always answers: it never loops forever. */
  lemma {:induction false} FitsNeverDiverges(r: Ring, length: nat)
    requires Valid(r)
    ensures Fits(r.config) ==> !Allocate(r, length).Diverges?
  {
    if Fits(r.config) && length < r.config.maximumAllocationSize {
      FitsServesFresh(r.config, length);
    }
  }

  /**
   * A diverging allocation is stuck: after one more slab is appended the loop
   * is in the same situation again, with room to grow and a fresh slab that
   * cannot serve.
   */
  lemma DivergenceRepeats(r: Ring, length: nat)
    requires Valid(r) && Grow(r, length).Diverges?
    ensures NewSlab(r).Some?
    ensures var r1 := NewSlab(r).value.0;
      && Grow(r1, length).Diverges?
      && Slab.Allocate(NewSlab(r1).value.1, length).None?
  {
  }
}

=== FILE: wrappers.dfy ===
/** The optional value used throughout the model, standing for Rust's `Option`. */
module Wrappers {

  datatype Option<+T> = None | Some(value: T)
}
